=== FILE: README.md ===
# number2english_word in Dafny

A model of `index.js` of the number2english_word library, which turns numbers into
English words. The model covers:

- the engine `number2wordEnglish`: comma handling, negatives, decimals, validation,
  zero, leading zeros, lower-casing;
- its helpers `split_rl`, `trim_zeros`, `is_lt20`, `convert_lt100`, `convert_lt1000`,
  `with_scale`, `convert_lt_max`, `convert_max`, `convertDecimal` and
  `capitalizeFirstLetter`;
- the `lt20`, `tens` and `scales` tables and `max`;
- the two layers on top of the engine: `toCurrency` and `toOrdinal`.

Numbers are digit strings (`seq<char>`) throughout, as in the library. Parsed amounts are
exact naturals. The options are an immutable record passed explicitly, not the
`number2wordEnglish._options` global. An error is a `Result` failure `InvalidNumber(input)`.

The library's quirks are kept as written:

- a zero group leaves two spaces, so 1000001 reads "One Million  One";
- `convert_max` output is not trimmed;
- non-negative decimals (the `convertDecimal` path) are never lower-cased;
- the empty string gives "Zero" even when `capitalizeFirst` is false;
- an empty last word would take "th" in `toOrdinal` (`Ordinal.EmptyWordOrdinal`). The model reaches it only for integers of 1e21 or more, which it reads exactly. The library never gets there: it prints such a number in exponent form. A one-digit mantissa ("1e+21") has no '.' and fails the validation regex, so it throws. Any other mantissa ("1.5e+21") holds a '.' and is read by `convertDecimal` as a decimal, where 'e' and '+' each read "Zero".

Modules, one per file, in dependency order:

| module | file | contents |
|---|---|---|
| `Text` | text.dfy | `trim`, ASCII case mapping, `capitalizeFirstLetter`, comma deletion/replacement, `join`, `split` on a character and on whitespace runs |
| `Outcomes` | outcomes.dfy | `Option`, `Result`, `InvalidNumber` |
| `Digits` | digits.dfy | digit strings, their values, `trim_zeros`, number-to-string, JavaScript `parseInt` |
| `Lexicon` | lexicon.dfy | the `lt20`, `tens`, `scales` tables and `max` |
| `Groups` | groups.dfy | `split_rl`, `convert_lt100`, `convert_lt1000`, and the value-based group name `NameOf` |
| `Compose` | compose.dfy | `with_scale`, `convert_lt_max`, `convert_max`, and the value-based reading `Spoken` |
| `Engine` | engine.dfy | `number2wordEnglish`, `convertDecimal`, and the cardinal of an integer |
| `Currency` | currency.dfy | `toCurrency` |
| `OrdinalTable` | ordinal_table.dfy | the word-to-ordinal table of `toOrdinal` |
| `Ordinal` | ordinal.dfy | `toOrdinal` |

Two reference definitions serve as partners for the digit-string code:

- `Groups.NameOf(v, useAnd)` names a value below 1000 by arithmetic on `v`.
- `Compose.Spoken(v, k, useAnd)` reads a value through its base-1000 digits.

The lemmas tie the string code to them. For example, `convert_lt_max` of a digit string
equals `Spoken` of the string's value.

## Model

| member | source | states |
|---|---|---|
| Text.Trim | index.js:44 | the result has no leading or trailing whitespace, is no longer than the input, and leaves an already trimmed string unchanged |
| Text.TrimSlice | index.js:44 | the trimmed string is a contiguous slice of the input, and everything before and after that slice is whitespace |
| Text.TrimKeepsOut | index.js:44 | trimming adds no character: one absent from the input is absent from the result |
| Text.TrimDropsTrailing | index.js:286 | whitespace after a string does not survive the final `trim` of `convert_lt_max` |
| Text.Lower | index.js:58 | lower-casing keeps the length and maps every character on its own |
| Text.Upper | index.js:161 | upper-casing keeps the length and maps every character on its own |
| Text.CapitalizeFirstLetter | index.js:352-355 | only the first character changes, to its upper-case form; the empty string is returned as is |
| Text.CapitalizeCapitalized | index.js:207 | capitalising a string that already starts with a capital changes nothing |
| Text.DeleteAll | index.js:52 | after `replaceAll(",", "")` no comma is left, every other character is kept as often as it occurs, so the length drops by the number of commas, and a string without commas is unchanged |
| Text.DeleteAllAppend | index.js:52 | deleting the commas of a concatenation deletes them from each part, so the kept characters stay in their order |
| Text.DeleteAllIdempotent | index.js:52 | deleting the commas twice is the same as deleting them once |
| Text.ReplaceAll | index.js:49 | `replace(/,/g, '.')` changes exactly the commas, position by position |
| Text.SplitFirstKeepsOut | index.js:106 | the first piece of a split holds no character the input lacks |
| Text.Split | index.js:106 | `split` on one character gives one piece exactly when the character does not occur |
| Text.JoinSplit | index.js:244-252 | joining the pieces of a split with the same character restores the string |
| Text.SplitWs | index.js:241 | `split(/\s+/)` yields at least one piece, no piece holds whitespace, only the first or last may be empty, and a string starting with a non-space has a non-empty first piece |
| Text.SplitJoin | index.js:241-261 | splitting words joined by single spaces recovers the words |
| Text.SplitWsPad | index.js:241 | any non-empty whitespace run separates a word from the rest |
| Text.ReplaceLast | index.js:244-261 | replacing the last element of a list before joining changes only the text after the last separator |
| Digits.TrimZeros | index.js:344-346 | `trim_zeros` removes exactly the leading zeros: the rest starts with a non-zero or is empty, and it is empty exactly when the input is all zeros |
| Digits.ValueTrimZeros | index.js:84 | stripping leading zeros keeps the number's value |
| Digits.ValueZeroIffAllZeros | index.js:80 | the `numVal === 0` test holds exactly for all-zero digit strings |
| Digits.NatToString | index.js:196 | a natural number prints as a non-empty digit string of its own value, with no leading zero unless it is 0 itself |
| Digits.IntToString | index.js:224 | negative numbers print with a leading '-' and the digits of their magnitude |
| Digits.ParseIntNaN | index.js:216-220 | `parseInt` returns NaN exactly when, after the leading whitespace and one optional sign, either a '0x'/'0X' prefix is followed by no hex digit, or there is no such prefix and no decimal digit starts the rest |
| Digits.ParseUnsignedNone | index.js:216 | the unsigned part of `parseInt` finds nothing exactly when its input either starts with a '0x'/'0X' prefix followed by no hex digit, or has no such prefix and does not start with a decimal digit |
| Digits.ParseIntDigits | index.js:216 | a whole digit string parses to its value, and with a leading '-' to the negated value |
| Digits.ParseIntZeros | index.js:216-222 | a run of zeros parses to zero, with or without a leading '-' |
| Digits.ParseIntDecimal | index.js:216 | `parseInt` of leading decimal digits followed by a non-digit is the value of those digits, unless the digits are the single "0" and an 'x'/'X' follows, which forms a hexadecimal prefix |
| Digits.ParseIntNegative | index.js:216 | `parseInt` of '-' and digits is the negated value |
| Digits.ParseInt | index.js:216 | JavaScript `parseInt` on a string: `Digits.ParseIntNaN` says when it is NaN, `Digits.ParseIntDigits`, `Digits.ParseIntDecimal` and `Digits.ParseIntNegative` what it reads |
| Lexicon.TableSizes | index.js:6-21 | twenty `lt20` words, ten `tens` words, twelve scale words, `max` = 36, and "Decillion" is the last scale word |
| Lexicon.Lt20Words | index.js:6-10 | `lt20[0]` is empty and every other entry is a capitalised word |
| Lexicon.TensWords | index.js:12-14 | `tens[0]` is empty and every other entry is a capitalised word |
| Lexicon.ScaleWords | index.js:16-19 | `scales[0]` is empty and every other entry is a capitalised word |
| Groups.SplitRl | index.js:319-329 | `split_rl(s, n)` concatenates back to `s`, is empty only for empty `s`, and every group but the first has exactly `n` characters, the first 1 to `n` |
| Groups.SplitRlDigits | index.js:319-329 | the groups of a digit string are digit strings |
| Groups.SplitRlCount | index.js:319-329 | a non-empty string splits into the smallest number of groups that covers it |
| Groups.GroupCount | index.js:319-329 | `split_rl(s, 3)` has ⌈\|s\|/3⌉ groups |
| Groups.SplitRlLast | index.js:323-325 | the last group is the last `n` characters and the rest is split recursively |
| Groups.ConvertLt100 | index.js:309-317 | `convert_lt100`: `Groups.ConvertLt100Name` proves it equal to the arithmetic reference `Groups.NameOf` |
| Groups.ConvertLt1000 | index.js:290-307 | `convert_lt1000`: `Groups.ConvertLt1000Name` proves it equal to the reference, and `Groups.GroupSilentIffZero` that it is empty exactly for an all-zero group |
| Groups.NameOfShape | index.js:290-317 | a group name is empty exactly for zero, and otherwise starts with a capital letter and does not end in whitespace |
| Groups.ConvertLt100Name | index.js:309-317 | `convert_lt100` of one or two digits names the value, as the reference does |
| Groups.ConvertLt1000Name | index.js:290-307 | `convert_lt1000` of up to three digits, leading zeros included, names the value, as the reference does |
| Groups.ConvertHundredsName | index.js:296-306 | the three-digit branch of `convert_lt1000` names the value, as the reference does |
| Groups.NameOfTens | index.js:312-316 | for 20 to 99 the name is the tens word, hyphen-joined to the ones word when the ones digit is non-zero |
| Groups.NameOfHundreds | index.js:296-305 | for 100 to 999 the name is "<Digit> Hundred", followed by " " (or " and " with `useAnd`) and the remainder's name only when the remainder is non-zero |
| Groups.NameOfSmall | index.js:310-311 | below twenty the name is the `lt20` word |
| Groups.NameOfBelowHundred | index.js:298-299 | `useAnd` has no effect below one hundred |
| Groups.GroupSilentIffZero | index.js:291-294 | `convert_lt1000` returns "" exactly for an all-zero group |
| Groups.NameTrimmed | index.js:278 | group names carry no surrounding whitespace |
| Groups.NameExamples | index.js:309-317 | 1, 5, 13, 21, 25, 42, 50 and 99 read "One", "Five", "Thirteen", "Twenty-One", "Twenty-Five", "Forty-Two", "Fifty", "Ninety-Nine" |
| Groups.OneHundredTwentyThree | index.js:296-316 | 123 reads "One Hundred Twenty-Three" |
| Groups.OneHundredAndOne | index.js:296-306 | with `useAnd`, 101 reads "One Hundred and One" |
| Groups.HundredsExamples | index.js:296-305 | 123 reads "One Hundred Twenty-Three"; with `useAnd`, 101 reads "One Hundred and One" and 100 reads "One Hundred" |
| Compose.ScaleFromRightAt | index.js:280-285 | after `reverse().map(with_scale).reverse()` the group j places from the left carries the scale word of its distance from the right end |
| Compose.ReentryUnreachable | index.js:331-338 | a string of at most 36 digits has at most 12 groups, so every group index has a scale word and the re-entering branch of `with_scale` is never taken |
| Compose.Scaled | index.js:331-342 | `with_scale` for a group index inside the scale table: `Compose.ScaledGroup` states its output |
| Compose.ConvertLtMax | index.js:275-288 | the output of `convert_lt_max` is trimmed |
| Compose.ScaledGroup | index.js:331-342 | a group contributes nothing when all zeros, else its name, a space and its scale word |
| Compose.GroupPiece | index.js:280-286 | within `convert_lt_max` an all-zero group contributes neither "Zero" nor a scale word, and any other group contributes its name and the scale word of its position |
| Compose.GroupValues | index.js:280-281 | the k-th group from the right of a digit string holds the k-th base-1000 digit of its value |
| Compose.GroupNames | index.js:280-281 | naming the groups of a digit string equals naming the base-1000 digits of its value |
| Compose.ConvertLtMaxSpoken | index.js:275-288 | `convert_lt_max` of a digit string of at most 36 digits is the reference reading of its value |
| Compose.ShortGroup | index.js:277-278 | up to three digits are named as one trimmed group |
| Compose.ConvertLtMaxZeros | index.js:275-288 | an all-zero string gives the empty string |
| Compose.SpokenZero | index.js:280-286 | the reference reading of zero is empty for any number of groups |
| Compose.SpokenThousands | index.js:278-286 | a number from 1000 to 999999 read in two groups is, by its arithmetic alone, the name of `v / 1000`, " Thousand", then a space and the name of `v % 1000` unless that is zero |
| Compose.ConvertLtMaxCapitalized | index.js:275-288 | without leading zeros the output starts with a capital letter |
| Compose.ConvertMaxShort | index.js:264-273 | for at most 36 digits `convert_max` is `convert_lt_max` |
| Compose.ConvertMaxStep | index.js:264-273 | for more than 36 digits the output is the leading digits' reading, " Decillion ", and the last 36 digits' reading, untrimmed |
| Compose.ConvertMaxCapitalized | index.js:264-273 | without leading zeros the output starts with a capital letter |
| Compose.ConvertMax | index.js:264-273 | `convert_max`: `Compose.ConvertMaxShort` and `Compose.ConvertMaxStep` state its two branches |
| Compose.ChunkTextsMarked | index.js:266-270 | appending a chunk gives the previous last chunk " Decillion" and reads the new chunk as is, so every chunk but the last is marked |
| Engine.Normalize | index.js:44-53 | the input is trimmed, then with `commaAs` "thousands" every comma is deleted and with "decimal" every comma becomes '.'; the result holds no comma and is no longer than the input |
| Engine.Words | index.js:32-96 | `number2wordEnglish`: the empty string reads "Zero"; the lemmas below state each branch against its partner (`Engine.CommasDropped`, `Engine.DecimalComma`, `Engine.NegativeWords`, `Engine.DecimalBranch`, `Engine.PlainValidation`, `Engine.WordsZero`, `Engine.WordsNumeral`, `Engine.LowerCaseReading`) |
| Engine.ReadNormal | index.js:55-95 | the reading after clean-up: `Engine.NegativeWords`, `Engine.DecimalBranch`, `Engine.PlainValidation` and `Engine.NumeralAccepted` state its branches |
| Engine.ReadNumeral | index.js:79-95 | the numeral branch: `Engine.WordsZero`, `Engine.WordsNumeral`, `Engine.LeadingZero` and `Engine.ReadNumeralCapitalized` state it |
| Engine.ConvertDecimal | index.js:104-121 | `convertDecimal`: `Engine.DecimalReading`, `Engine.SecondPointIgnored` and `Engine.DecimalCase` state its reading |
| Engine.PlainPattern | index.js:67 | with '-' and '.' already handled, the validation regex accepts exactly non-empty digit strings |
| Engine.Cased | index.js:95 | lower-casing keeps the length, and nothing changes when `capitalizeFirst` is set |
| Engine.Negated | index.js:56-59 | a successful reading becomes "Negative " and that reading, lower-cased as a whole when `capitalizeFirst` is false; an error propagates unchanged |
| Engine.WordsCapitalized | index.js:32-96 | with `capitalizeFirst` every successful result starts with a capital letter |
| Engine.DecimalCase | index.js:104-121 | the integer part is read with `capitalizeFirst` forced on, the result is the same with or without `capitalizeFirst`, and it starts with a capital letter |
| Engine.NumeralAccepted | index.js:66-95 | every non-empty digit string is accepted, passes the clean-up unchanged, and is read by the numeral branch |
| Engine.WordsNumeral | index.js:84-95 | a non-zero digit string of fewer than 36 significant digits reads as the reference reading of its value |
| Engine.WordsZero | index.js:79-82 | any all-zero digit string reads "Zero", or "zero" when `capitalizeFirst` is false |
| Engine.LeadingZero | index.js:84 | in front of a non-empty digit string, a leading zero never changes the words |
| Engine.SameNormalForm | index.js:43-53 | two non-empty inputs with the same cleaned form succeed alike and, when they succeed, give the same words; their errors still carry their own inputs |
| Engine.CommasDropped | index.js:50-53 | with `commaAs` "thousands", any trimmed input that reads successfully reads as the same input without its commas (so "10,580" reads as "10580"), and when something is left after deleting the commas, one succeeds exactly when the other does |
| Engine.DecimalComma | index.js:47-49 | with `commaAs` "decimal", a trimmed input gives exactly the result of the same input with every comma replaced by '.', read in "thousands" mode: the same words, or the same error |
| Engine.PointNeverRejected | index.js:55-64 | a cleaned input holding a point is never rejected by the final validation: it is read by the negative branch or by `convertDecimal` |
| Engine.CommaModeIrrelevant | index.js:47-53 | for an input without commas the `commaAs` setting changes nothing |
| Engine.TenPointFiveEight | index.js:47-121 | with `commaAs` "decimal", "10,58" reads "Ten Point Five Eight" |
| Engine.BlankRejected | index.js:44-69 | a non-empty all-whitespace input is rejected with `InvalidNumber` carrying the input |
| Engine.PlainValidation | index.js:66-69 | a trimmed non-empty input with no '-' in front and no '.' or ',' is accepted exactly when it is all digits, and the error carries the input |
| Engine.DecimalBranch | index.js:61-64 | a trimmed, comma-free input holding '.' and not starting with '-' is handed to `convertDecimal` |
| Engine.DecimalReading | index.js:104-118 | digits "a.b" read as the integer part ("Zero" when empty), then " Point" and one word per fraction digit only when the fraction is non-empty |
| Engine.SecondPointIgnored | index.js:106-108 | for digits "a.b", any text after a second '.' is dropped, provided that text has no whitespace at its ends and no comma |
| Engine.DecimalIgnoresCase | index.js:110-120 | non-negative decimals (the `convertDecimal` path) are never lower-cased: `capitalizeFirst` false gives the same words as true |
| Engine.LowerCaseReading | index.js:58-95 | for a non-empty input that does not go straight to `convertDecimal`, the result with `capitalizeFirst` false is the lower-cased result with it true |
| Engine.NegativeWords | index.js:56-59 | a trimmed comma-free input "-x" reads as x read in "thousands" mode with `capitalizeFirst` on, passed to the negation: "Negative " prefixed on success, lower-cased as a whole when `capitalizeFirst` is false, and x's error otherwise |
| Engine.NegativeLower | index.js:56-59 | a leading '-' reads as "Negative " plus the rest read with `capitalizeFirst` on, lower-cased as a whole when `capitalizeFirst` is false |
| Engine.NegativeReading | index.js:56-95 | "-" and digits read as "Negative " and the digits' reading |
| Engine.DigitWordIsNumeral | index.js:116 | a fraction digit is named with its `lt20` word, and '0' with "Zero" |
| Engine.DigitNames | index.js:115-117 | one word per fraction character, in order |
| Engine.PointWordsJoin | index.js:112-118 | a non-empty fraction adds " Point " and its digit words joined by spaces |
| Engine.ReadNumeralCapitalized | index.js:79-95 | every reading of a non-empty digit string, zeros included, starts with a capital letter |
| Engine.SingleDigit | index.js:277-278 | a single non-zero digit reads as its `lt20` word |
| Engine.CardinalAccepted | index.js:224 | the engine never rejects a printed integer |
| Engine.Cardinal | index.js:224 | the cardinal of an integer is non-empty and starts with a capital letter |
| Engine.CardinalZero | index.js:79-82 | zero's cardinal is "Zero" |
| Engine.CardinalNegative | index.js:56-59 | a negative integer's cardinal is "Negative " and its magnitude's cardinal |
| Engine.CardinalSpoken | index.js:84-95 | a positive integer's cardinal is the reference reading of the integer |
| Engine.CardinalSmall | index.js:277-317 | the cardinal of 1 to 999 is its group name |
| Currency.ResolveUnits | index.js:155-166 | custom names win exactly when the major name is not "Dollar" or the minor name is not "Cent"; otherwise the table entry for the upper-cased code; an unknown code falls back to the supplied names |
| Currency.CodeCaseInsensitive | index.js:161 | the currency code is matched regardless of case |
| Currency.DefaultUnits | index.js:137-161 | with no options the units are Taka and Paisa |
| Currency.TwoPlaces | index.js:184 | the fraction is cut or right-padded with '0' to exactly two characters |
| Currency.TwoPlacesValue | index.js:184 | the two-place reading of a digit fraction is its hundredths value, so "5" is 50 and "555" is 55 |
| Currency.Hundredths | index.js:184 | the minor amount of a digit fraction is below 100 |
| Currency.MajorDigits | index.js:183 | the major amount of a digit string is its value, with 0 for the empty string |
| Currency.ReadAmount | index.js:179-184 | the amount is negative exactly when the cleaned input starts with '-' |
| Currency.ReadDecimal | index.js:179-184 | "a.b" in digits reads as the value of a and the hundredths of b |
| Currency.ReadWhole | index.js:179-184 | a digit string reads as its value with a minor amount of zero |
| Currency.ReadMinus | index.js:179-180 | a leading '-' only sets the sign, when what follows does not itself start with '-' |
| Currency.MajorText | index.js:192-199 | the major part is non-empty and capitalised |
| Currency.Say | index.js:186-206 | every rendered amount is non-empty and starts with a capital letter |
| Currency.MinorOmitted | index.js:202-205 | a zero, negative or unparsable minor amount adds nothing |
| Currency.SayNegative | index.js:188-190 | a negative amount is "Negative " and the rendering of its magnitude |
| Currency.SayBelowThousand | index.js:186-205 | below one thousand: optional "Negative ", the major name, a space and the major unit (singular iff exactly 1), then " and ", the minor name and unit (singular iff exactly 1) only when the minor amount is positive |
| Currency.ToCurrency | index.js:135-207 | `toCurrency` is the rendering of the amount read from the cleaned input, with the resolved units; with exact amounts it never fails |
| Currency.CurrencyDecimal | index.js:168-207 | "a.b" in digits renders the value of a and the hundredths of b |
| Currency.CurrencyWhole | index.js:168-207 | a digit string renders its value with no minor part |
| Currency.ZeroCentsDropped | index.js:184-205 | a fraction whose first two digits are zero renders the same as no fraction |
| Currency.CurrencyNegative | index.js:179-190 | "-x" renders as "Negative " followed by the rendering of x |
| Currency.CurrencyCommas | index.js:174-177 | with `commaAs` "thousands" commas are ignored |
| Currency.CurrencyDecimalComma | index.js:171-173 | with `commaAs` "decimal" a comma acts as the decimal point |
| Currency.OneFifty | index.js:135-207 | "1.5" reads "One Taka and Fifty Paisa" |
| Currency.OnePaisa | index.js:135-207 | "0.01" reads "Zero Taka and One Paisa" |
| Currency.TwentyFiveFifty | index.js:135-207 | "25.5" reads "Twenty-Five Taka and Fifty Paisa" |
| Currency.NegativeTwentyFive | index.js:135-207 | "-25.5" reads "Negative Twenty-Five Taka and Fifty Paisa" |
| Currency.FortyTwoCredits | index.js:156-199 | custom units give "42" as "Forty-Two Credits" |
| Ordinal.ToOrdinal | index.js:215-222 | `toOrdinal` fails exactly when `parseInt` gives NaN (magnitudes are exact here), the error carries the input, and a parsed zero gives "Zeroth" |
| Ordinal.OrdinalLastWord | index.js:224-261 | a positive number's ordinal has the words of its cardinal, closed up to single spaces, with only the last word rewritten |
| Ordinal.OnlyLastWordChanges | index.js:241-261 | rewriting changes only the text after the last space of the single-spaced words |
| Ordinal.HyphenLast | index.js:244-252 | in a hyphenated last word only the segment after the last hyphen changes: table form, else "th" appended |
| Ordinal.LastHyphen | index.js:245-246 | every hyphenated word splits at its last hyphen into a front and a hyphen-free segment |
| Ordinal.RewriteWord | index.js:241-261 | a single word is replaced by its ordinal form |
| Ordinal.RewriteAfterWord | index.js:241-261 | a word before a whitespace run passes through unchanged and the run closes up to one space |
| Ordinal.RewriteTrailingSpace | index.js:241-261 | a trailing space leaves an empty last word, which becomes "th" |
| Ordinal.EmptyWordOrdinal | index.js:253-258 | the empty word becomes "th" |
| Ordinal.RewriteTableWord | index.js:253-254 | a table word becomes its table form |
| Ordinal.RewriteHyphenTable | index.js:244-252 | a hyphenated word whose last segment is a table word gets that segment's table form |
| OrdinalTable.TableExamples | index.js:227-238 | "One", "Five", "Hundred" and "Million" map to "First", "Fifth", "Hundredth" and "Millionth" |
| Ordinal.OrdinalOfNegative | index.js:224-261 | a negative number's ordinal is "Negative " and its magnitude's ordinal |
| Ordinal.OrdinalOf | index.js:222-261 | the ordinal of a parsed integer: `Ordinal.Zeroth`, `Ordinal.OrdinalOfNegative` and `Ordinal.OrdinalLastWord` state it |
| Ordinal.Rewrite | index.js:241-261 | the last-word rewrite: `Ordinal.OnlyLastWordChanges`, `Ordinal.RewriteWord`, `Ordinal.HyphenLast` and `Ordinal.RewriteAfterWord` state it |
| Ordinal.OrdinalNegative | index.js:216-261 | a digit string with a non-zero digit reads as the ordinal of its value, and with a leading '-' as "Negative " and that ordinal |
| Ordinal.ParsedNegative | index.js:216-261 | an input `parseInt` reads as a negative number gives "Negative " and the ordinal of its magnitude |
| Ordinal.SmallOrdinal | index.js:216-261 | a digit string naming 1 to 999 reads as the rewrite of its group name |
| Ordinal.Zeroth | index.js:222 | zero, signed or not and with any number of zeros, is "Zeroth" |
| Ordinal.LeadingDigits | index.js:216 | only the leading digits count, so "12.7", "12abc" and "12x" read as twelve; only a "0" directly followed by 'x' or 'X' is excluded |
| Ordinal.NoDigitsRejected | index.js:216-220 | input that starts with no digit, sign or whitespace is rejected with `InvalidNumber` |
| Ordinal.DigitsOrdinal | index.js:216-224 | a digit string is read as its value |
| Ordinal.OrdinalSmall | index.js:224-261 | 1 to 999 take the rewrite of their group name |
| Ordinal.TwentyFirst | index.js:244-252 | "Twenty-One" becomes "Twenty-First" |
| Ordinal.OneHundredth | index.js:241-261 | "One Hundred" becomes "One Hundredth" |
| Ordinal.MillionFirst | index.js:241-261 | "One Million  One" becomes "One Million First" |
| Ordinal.Fifth | index.js:253-254 | "Five" becomes "Fifth" |
| Ordinal.TwentyFirstOrdinal | index.js:215-262 | "21" reads "Twenty-First" |
| Ordinal.FifthOrdinal | index.js:215-262 | "5" reads "Fifth" |
| Ordinal.NegativeFifth | index.js:215-262 | "-5" reads "Negative Fifth" |

## Left out

- JavaScript number-to-string conversion and float parsing are not modelled (index.js:44, 72, 183, 216, 224). Inputs are strings and parsed amounts are exact naturals. So `1.50` becoming "1.5", exponent notation at or above 1e21, and `parseFloat`/`parseInt` precision loss are absent.
- `null` and `undefined` inputs (index.js:39) are absent: a string cannot be either. Only the empty-string case is kept.
- The mutable `number2wordEnglish._options` cache (index.js:36, 298) is replaced by an options record passed explicitly. Its only observable effect is the `useAnd` of nested calls, and the model reproduces that effect.
- Error messages carry only the offending input, not their wording.
- Case mapping is ASCII only. Every generated word is ASCII; `toUpperCase` of a currency code outside ASCII is not modelled.
- The engine's input is the string after `toString()`. A JavaScript string is UTF-16 code units; here it is a sequence of `char`.
- `with_scale` re-entering the engine for a group past the scale table (index.js:337) is not modelled. `Compose.ReentryUnreachable` proves no caller reaches that branch.
- The `parseFloat` NaN test (index.js:72-77) is left out. After the regex check it can never fire, and its zero test is `Digits.ValueZeroIffAllZeros`.
- Lookups of object keys such as "constructor" in the ordinal and currency tables are not modelled. JavaScript would find inherited prototype members for them, but generated words and currency codes never take such names.
- Currency.ToCurrency: the model reads every major amount exactly. From 1e21 on, the library's `parseInt` result prints in exponent form before the engine reads it (index.js:44). With a one-digit mantissa ("1e+21") there is no '.', the validation regex at index.js:67 fails and the library throws. Any other mantissa ("1.5e+21") goes to `convertDecimal` (index.js:62-63), which reads 'e' and '+' as "Zero" (index.js:116): "1500000000000000000000" renders "One Point Five Zero Zero Two One Taka". Neither outcome is modelled.
- Ordinal.ToOrdinal: the model fails exactly when `parseInt` gives NaN and reads every magnitude exactly. From 1e21 on, the library's magnitude prints in exponent form before the engine reads it. A one-digit mantissa ("1e+21") fails the validation regex at index.js:67 and the library throws. Any other mantissa is read as a decimal by `convertDecimal` (index.js:62-63, 116), and the rewrite then applies to its last digit word: "1500000000000000000000" gives "One Point Five Zero Zero Two First". Neither outcome is modelled.
- Currency.SayBelowThousand: the closed form is stated for major amounts below one thousand. Larger amounts go through `Engine.Cardinal`, which `Engine.CardinalSpoken` characterises.
- Concrete examples above 999 are stated at the level of the ordinal rewrite (`Ordinal.MillionFirst`), not from the number.
- examples.js and demo-new-features.js are console demos, index.d.ts holds type declarations, and jest.config.js configures the test runner. None of them is modelled. test/index.test.js is not modelled either; the example lemmas state a selection of its expected outputs.

=== FILE: compose.dfy ===
/**
 Putting groups together (index.js:264-288, 331-342): `with_scale` attaches
 the scale word of a group's position, `convert_lt_max` names a number of at
 most 36 digits group by group, and `convert_max` chains 36-digit chunks with
 "Decillion" for anything longer.
 */
module Compose {
  import opened Text
  import opened Digits
  import opened Lexicon
  import opened Groups

  /** `with_scale(str, i)` once the scale word of position `i` is looked
      up: a non-empty group name, trimmed, followed by a space and the
      scale word (the units scale word is empty, so that piece ends in a
      space); an empty name stays empty. The source re-enters the
      converter when `i` is past the scale table; `ReentryUnreachable`
      shows no caller gets there. */
  function Scaled(str: string, word: string): string
  {
    if str == [] then [] else Trim(str) + " " + word
  }

  function Reverse<T>(xs: seq<T>): (r: seq<T>)
    ensures |r| == |xs|
    ensures forall i :: 0 <= i < |xs| ==> r[i] == xs[|xs| - 1 - i]
  {
    seq(|xs|, i requires 0 <= i < |xs| => xs[|xs| - 1 - i])
  }

  /** Every piece is a digit string of at most three characters. */
  predicate ThreeDigitGroups(gs: seq<string>) {
    && (forall i :: 0 <= i < |gs| ==> IsDigits(gs[i]))
    && (forall i :: 0 <= i < |gs| ==> |gs[i]| <= 3)
  }

  /** `.map(convert_lt1000)` */
  function NameGroups(gs: seq<string>, useAnd: bool): (r: seq<string>)
    requires ThreeDigitGroups(gs)
    ensures |r| == |gs|
  {
    seq(|gs|, i requires 0 <= i < |gs| => ConvertLt1000(gs[i], useAnd))
  }

  lemma NameGroupsAt(gs: seq<string>, useAnd: bool, j: nat)
    requires ThreeDigitGroups(gs) && j < |gs|
    ensures IsDigits(gs[j]) && |gs[j]| <= 3
    ensures NameGroups(gs, useAnd)[j] == ConvertLt1000(gs[j], useAnd)
  {
  }

  /** `.map(with_scale)` over the scale table `table`: the i-th element
      gets the i-th scale word. */
  function ScaleEach(xs: seq<string>, table: seq<string>): (r: seq<string>)
    requires |xs| <= |table|
    ensures |r| == |xs|
    ensures forall i :: 0 <= i < |xs| ==> r[i] == Scaled(xs[i], table[i])
  {
    seq(|xs|, i requires 0 <= i < |xs| => Scaled(xs[i], table[i]))
  }

  /** `.reverse().map(with_scale).reverse()` over the scale table
      `table`; `ScaleFromRightAt` says what lands where. */
  function ScaleFromRight(names: seq<string>, table: seq<string>): (r: seq<string>)
    requires |names| <= |table|
    ensures |r| == |names|
  {
    Reverse(ScaleEach(Reverse(names), table))
  }

  /** Reversing around the scale map gives the name j places from the left
      the scale word of its distance from the right end. */
  lemma ScaleFromRightAt(names: seq<string>, table: seq<string>, j: nat)
    requires |names| <= |table| && j < |names|
    ensures ScaleFromRight(names, table)[j] == Scaled(names[j], table[|names| - 1 - j])
  {
    var rn := Reverse(names);
    var scaled := ScaleEach(rn, table);
    var i := |names| - 1 - j;
    assert rn[i] == names[|names| - 1 - i];
    assert |names| - 1 - i == j;
    assert scaled[i] == Scaled(rn[i], table[i]);
    assert Reverse(scaled)[j] == scaled[|scaled| - 1 - j];
  }

  /** The groups `split_rl(s, 3)` produces are three-digit groups. */
  lemma SplitRlGroups(s: string)
    requires IsDigits(s)
    ensures ThreeDigitGroups(SplitRl(s, 3))
  {
    SplitRlDigits(s, 3);
  }

  /** A number of at most 36 digits has at most 12 groups, so every group
      has a scale word and `with_scale` never re-enters the converter. */
  lemma ReentryUnreachable(s: string)
    requires |s| <= MAX
    ensures |SplitRl(s, 3)| <= GROUPS
  {
    GroupCount(s);
  }

  /** `convert_lt_max`: up to three digits are named as one group; longer
      strings are named group by group with their scale words, joined by
      single spaces and trimmed. A zero group contributes an empty piece,
      which leaves two spaces between its neighbours. */
  function ConvertLtMax(val: string, useAnd: bool): (r: string)
    requires IsDigits(val) && |val| <= MAX
    ensures Tidy(r)
  {
    if |val| < 4 then Trim(ConvertLt1000(val, useAnd))
    else
      var gs := SplitRl(val, 3);
      ReentryUnreachable(val);
      SplitRlGroups(val);
      TableSizes();
      Trim(Join(ScaleFromRight(NameGroups(gs, useAnd), SCALES), " "))
  }

  /** The piece a three-digit group contributes after naming and scaling
      against any scale table. */
  lemma ScaledGroup(gs: seq<string>, useAnd: bool, table: seq<string>, j: nat)
    requires ThreeDigitGroups(gs) && |gs| <= |table| && j < |gs|
    ensures var piece := ScaleFromRight(NameGroups(gs, useAnd), table)[j];
            (piece == [] <==> AllZeros(gs[j]))
            && (!AllZeros(gs[j]) ==> piece == ConvertLt1000(gs[j], useAnd) + " " + table[|gs| - 1 - j])
  {
    NameGroupsAt(gs, useAnd, j);
    ScaleFromRightAt(NameGroups(gs, useAnd), table, j);
    GroupSilentIffZero(gs[j], useAnd);
    ConvertLt1000Name(gs[j], useAnd);
    NameTrimmed(Value(gs[j]), useAnd);
  }

  /** In `convert_lt_max`, the piece a group contributes before the join is
      empty exactly when the group is all zeros (no "Zero", no scale word);
      otherwise it is the group's name, a space and the scale word of its
      position from the right. */
  lemma GroupPiece(val: string, gs: seq<string>, useAnd: bool, j: nat)
    requires IsDigits(val) && |val| <= MAX && gs == SplitRl(val, 3) && j < |gs|
    ensures ThreeDigitGroups(gs) && |gs| <= |SCALES|
    ensures ScaleFromRight(NameGroups(gs, useAnd), SCALES)[j] == [] <==> AllZeros(gs[j])
    ensures !AllZeros(gs[j]) ==>
              ScaleFromRight(NameGroups(gs, useAnd), SCALES)[j]
              == ConvertLt1000(gs[j], useAnd) + " " + SCALES[|gs| - 1 - j]
  {
    ReentryUnreachable(val);
    SplitRlGroups(val);
    TableSizes();
    ScaledGroup(gs, useAnd, SCALES, j);
  }

  /** The value left after removing the last `k` base-1000 digits. */
  function DropThousands(v: nat, k: nat): nat
  {
    if k == 0 then v else DropThousands(v / 1000, k - 1)
  }

  /** Peeling the last group off a digit string of more than three digits
      divides its value by one thousand; the group holds the remainder. */
  lemma LastGroupValue(s: string)
    requires IsDigits(s) && |s| > 3
    ensures SplitRl(s, 3) == SplitRl(s[..|s| - 3], 3) + [s[|s| - 3..]]
    ensures IsDigits(s[..|s| - 3]) && IsDigits(s[|s| - 3..])
    ensures Value(s) / 1000 == Value(s[..|s| - 3])
    ensures Value(s) % 1000 == Value(s[|s| - 3..])
  {
    var front := s[..|s| - 3];
    var last := s[|s| - 3..];
    SplitRlLast(s, 3);
    assert front + last == s;
    ValueAppend3(front, last);
    SmallValue(last);
    DivModThousand(Value(front), Value(last));
  }

  /** The group `k` places from the right of `split_rl(s, 3)` holds the
      k-th base-1000 digit of the number `s` spells. */
  lemma {:induction false} GroupValues(s: string, k: nat)
    requires IsDigits(s) && k < |SplitRl(s, 3)|
    ensures IsDigits(SplitRl(s, 3)[|SplitRl(s, 3)| - 1 - k])
    ensures Value(SplitRl(s, 3)[|SplitRl(s, 3)| - 1 - k]) == DropThousands(Value(s), k) % 1000
    decreases |s|
  {
    var g := SplitRl(s, 3);
    var v := Value(s);
    SplitRlDigits(s, 3);
    if |s| <= 3 {
      SplitRlShort(s, 3);
      assert g[|g| - 1 - k] == s;
      SmallValue(s);
      ModSmall(v);
    } else {
      LastGroupValue(s);
      var front := s[..|s| - 3];
      var gf := SplitRl(front, 3);
      if k == 0 {
        assert g[|g| - 1 - k] == s[|s| - 3..];
        assert DropThousands(v, k) == v;
      } else {
        var idx := |gf| - k;
        assert |g| - 1 - k == idx && |gf| - 1 - (k - 1) == idx;
        assert g[idx] == gf[idx];
        GroupValues(front, k - 1);
        assert DropThousands(v, k) == DropThousands(Value(front), k - 1);
      }
    }
  }

  lemma ModSmall(v: nat)
    requires v < 1000
    ensures DropThousands(v, 0) % 1000 == v
  {
  }

  lemma DivModThousand(a: nat, b: nat)
    requires b < 1000
    ensures (a * 1000 + b) / 1000 == a && (a * 1000 + b) % 1000 == b
  {
  }

  /** The last `k` base-1000 digits of `v`, most significant first. */
  function Thousands(v: nat, k: nat): (r: seq<nat>)
    ensures |r| == k
    ensures forall j :: 0 <= j < k ==> r[j] < 1000
  {
    seq(k, j requires 0 <= j < k => DropThousands(v, k - 1 - j) % 1000)
  }

  lemma ThousandsAt(v: nat, k: nat, j: nat)
    requires j < k
    ensures Thousands(v, k)[j] == DropThousands(v, k - 1 - j) % 1000
  {
  }

  lemma ThousandsUnit(v: nat)
    requires v < 1000
    ensures Thousands(v, 1)[0] == v
  {
    assert Thousands(v, 1)[0] == DropThousands(v, 0) % 1000;
  }

  /** The reference name of every base-1000 digit. */
  function MapNames(ds: seq<nat>, useAnd: bool): (r: seq<string>)
    requires forall j :: 0 <= j < |ds| ==> ds[j] < 1000
    ensures |r| == |ds|
  {
    seq(|ds|, j requires 0 <= j < |ds| => NameOf(ds[j], useAnd))
  }

  lemma MapNamesAt(ds: seq<nat>, useAnd: bool, j: nat)
    requires forall j :: 0 <= j < |ds| ==> ds[j] < 1000
    requires j < |ds|
    ensures MapNames(ds, useAnd)[j] == NameOf(ds[j], useAnd)
  {
  }

  /** Reference reading of the number `v` written with `k` groups: each of
      its last `k` base-1000 digits named and given the scale word of its
      position from the right, then joined by spaces and trimmed. */
  function Spoken(v: nat, k: nat, useAnd: bool): string
    requires k <= GROUPS
  {
    TableSizes();
    Trim(Join(ScaleFromRight(MapNames(Thousands(v, k), useAnd), SCALES), " "))
  }

  /** The group name j places from the left of `split_rl(val, 3)` is the
      reference name of the matching base-1000 digit of the value. */
  lemma GroupNameAt(val: string, useAnd: bool, j: nat)
    requires IsDigits(val) && j < |SplitRl(val, 3)|
    ensures ThreeDigitGroups(SplitRl(val, 3))
    ensures NameGroups(SplitRl(val, 3), useAnd)[j]
         == MapNames(Thousands(Value(val), |SplitRl(val, 3)|), useAnd)[j]
  {
    var gs := SplitRl(val, 3);
    SplitRlGroups(val);
    NameGroupsAt(gs, useAnd, j);
    ConvertLt1000Name(gs[j], useAnd);
    GroupValueAt(val, j);
    MapNamesAt(Thousands(Value(val), |gs|), useAnd, j);
  }

  /** The group j places from the left holds base-1000 digit j of the
      value, counting from the most significant. */
  lemma GroupValueAt(val: string, j: nat)
    requires IsDigits(val) && j < |SplitRl(val, 3)|
    ensures IsDigits(SplitRl(val, 3)[j])
    ensures Value(SplitRl(val, 3)[j]) == Thousands(Value(val), |SplitRl(val, 3)|)[j]
  {
    var gs := SplitRl(val, 3);
    GroupValues(val, |gs| - 1 - j);
    assert |gs| - 1 - (|gs| - 1 - j) == j;
    ThousandsAt(Value(val), |gs|, j);
  }

  /** The names `convert_lt_max` gives the groups of a digit string are the
      reference names of the base-1000 digits of its value. */
  lemma GroupNames(val: string, useAnd: bool)
    requires IsDigits(val)
    ensures ThreeDigitGroups(SplitRl(val, 3))
    ensures NameGroups(SplitRl(val, 3), useAnd)
         == MapNames(Thousands(Value(val), |SplitRl(val, 3)|), useAnd)
  {
    var gs := SplitRl(val, 3);
    SplitRlGroups(val);
    var ns := NameGroups(gs, useAnd);
    var ms := MapNames(Thousands(Value(val), |gs|), useAnd);
    forall j | 0 <= j < |gs|
      ensures ns[j] == ms[j]
    {
      GroupNameAt(val, useAnd, j);
    }
  }

  /** `convert_lt_max` reads the number its digits spell: it agrees with
      the reference reading of the value in ceil(|val| / 3) groups. */
  lemma ConvertLtMaxSpoken(val: string, useAnd: bool)
    requires IsDigits(val) && |val| <= MAX
    ensures (|val| + 2) / 3 <= GROUPS
    ensures ConvertLtMax(val, useAnd) == Spoken(Value(val), (|val| + 2) / 3, useAnd)
  {
    if |val| < 4 {
      ConvertLtShortSpoken(val, useAnd);
    } else {
      ConvertLtLongSpoken(val, useAnd);
    }
  }

  /** The several-group case of `ConvertLtMaxSpoken`. */
  lemma ConvertLtLongSpoken(val: string, useAnd: bool)
    requires IsDigits(val) && 4 <= |val| <= MAX
    ensures (|val| + 2) / 3 <= GROUPS
    ensures ConvertLtMax(val, useAnd) == Spoken(Value(val), (|val| + 2) / 3, useAnd)
  {
    GroupCount(val);
    LongReading(val, useAnd);
  }

  /** The case of more than three digits, with the group count as
      `split_rl` finds it. */
  lemma LongReading(val: string, useAnd: bool)
    requires IsDigits(val) && 4 <= |val| <= MAX
    ensures |SplitRl(val, 3)| <= GROUPS
    ensures ConvertLtMax(val, useAnd) == Spoken(Value(val), |SplitRl(val, 3)|, useAnd)
  {
    ReentryUnreachable(val);
    GroupNames(val, useAnd);
  }

  /** The one-group case of `ConvertLtMaxSpoken`. */
  lemma ConvertLtShortSpoken(val: string, useAnd: bool)
    requires IsDigits(val) && |val| < 4
    ensures (|val| + 2) / 3 <= 1
    ensures ConvertLtMax(val, useAnd) == Spoken(Value(val), (|val| + 2) / 3, useAnd)
  {
    ShortCount(|val|);
    ShortReading(val, (|val| + 2) / 3, useAnd);
  }

  lemma ShortCount(n: nat)
    requires n < 4
    ensures (n + 2) / 3 == if n == 0 then 0 else 1
  {
  }

  lemma ShortReading(val: string, k: nat, useAnd: bool)
    requires IsDigits(val) && |val| < 4
    requires k == if |val| == 0 then 0 else 1
    ensures ConvertLtMax(val, useAnd) == Spoken(Value(val), k, useAnd)
  {
    ShortGroup(val, useAnd);
    if k == 0 {
      SpokenNone(Value(val), useAnd);
    } else {
      SpokenOne(Value(val), useAnd);
    }
  }

  /** Up to three digits are read as the name of their value. */
  lemma ShortGroup(val: string, useAnd: bool)
    requires IsDigits(val) && |val| < 4
    ensures Value(val) < 1000
    ensures ConvertLtMax(val, useAnd) == Trim(NameOf(Value(val), useAnd))
  {
    ConvertLt1000Name(val, useAnd);
  }

  /** With no groups nothing is said. */
  lemma SpokenNone(v: nat, useAnd: bool)
    ensures Spoken(v, 0, useAnd) == []
  {
  }

  /** A single group is read as its name. */
  lemma SpokenOne(v: nat, useAnd: bool)
    requires v < 1000
    ensures Spoken(v, 1, useAnd) == Trim(NameOf(v, useAnd))
  {
    UnitName(v, useAnd);
    TableSizes();
    ScaledUnit(MapNames(Thousands(v, 1), useAnd), SCALES);
  }

  /** Below one thousand the only digit is named by the number's name. */
  lemma UnitName(v: nat, useAnd: bool)
    requires v < 1000
    ensures MapNames(Thousands(v, 1), useAnd)[0] == NameOf(v, useAnd)
  {
    ThousandsUnit(v);
    MapNamesAt(Thousands(v, 1), useAnd, 0);
  }

  /** One name with the units scale word reads as the trimmed name. */
  lemma ScaledUnit(names: seq<string>, table: seq<string>)
    requires |names| == 1 && |table| > 0 && table[0] == []
    ensures Trim(Join(ScaleFromRight(names, table), " ")) == Trim(names[0])
  {
    var qs := ScaleFromRight(names, table);
    ScaleFromRightAt(names, table, 0);
    JoinOne(qs, " ");
    TrimUnitPiece(names[0]);
  }

  lemma JoinOne(xs: seq<string>, sep: string)
    requires |xs| == 1
    ensures Join(xs, sep) == xs[0]
  {
  }

  /** The units piece trims back to the name. */
  lemma TrimUnitPiece(n: string)
    ensures Trim(Scaled(n, [])) == Trim(n)
  {
    if n != [] {
      var t := Trim(n);
      assert Scaled(n, []) == t + " ";
      TrimDropsTrailing(t, " ");
    }
  }

  /** A number of two groups, read from its arithmetic alone: the name
      of its thousands, " Thousand", and then, unless the last three
      digits are zero, a space and their name. The piece of a zero units
      group is empty, and the final trim removes the space it leaves. */
  lemma SpokenThousands(v: nat, useAnd: bool)
    requires 1000 <= v < 1000000
    ensures Spoken(v, 2, useAnd)
         == NameOf(v / 1000, useAnd) + " Thousand"
            + (if v % 1000 == 0 then "" else " " + NameOf(v % 1000, useAnd))
  {
    TableSizes();
    var a, b := NameOf(v / 1000, useAnd), NameOf(v % 1000, useAnd);
    PairNames(v, useAnd);
    NameOfShape(v / 1000, useAnd);
    NameOfShape(v % 1000, useAnd);
    NameTrimmed(v / 1000, useAnd);
    NameTrimmed(v % 1000, useAnd);
    ThousandPair(a, b);
  }

  /** The two base-1000 digits of a number below a million are named by
      its thousands and its last three digits. */
  lemma PairNames(v: nat, useAnd: bool)
    requires v < 1000000
    ensures MapNames(Thousands(v, 2), useAnd) == [NameOf(v / 1000, useAnd), NameOf(v % 1000, useAnd)]
  {
    ThousandsAt(v, 2, 0);
    ThousandsAt(v, 2, 1);
    MapNamesAt(Thousands(v, 2), useAnd, 0);
    MapNamesAt(Thousands(v, 2), useAnd, 1);
  }

  /** Two trimmed names scaled, joined and trimmed: the first with
      " Thousand", then the second after a space unless it is empty. */
  lemma ThousandPair(a: string, b: string)
    requires a != [] && Tidy(a) && Tidy(b)
    ensures |SCALES| >= 2
    ensures Trim(Join(ScaleFromRight([a, b], SCALES), " "))
         == a + " Thousand" + (if b == [] then "" else " " + b)
  {
    TableSizes();
    var qs := ScaleFromRight([a, b], SCALES);
    PairPieces(a, b);
    assert Join(qs, " ") == qs[0] + " " + qs[1];
    var head := a + " Thousand";
    assert head[0] == a[0] && head[|head| - 1] == 'd';
    if b == [] {
      assert Join(qs, " ") == head + " ";
      TrimPiecePad(head);
      assert head + "" == head;
    } else {
      var body := head + " " + b;
      assert body[0] == a[0] && body[|body| - 1] == b[|b| - 1];
      assert Join(qs, " ") == body + " ";
      TrimPiecePad(body);
      AppendAssoc(head, " ", b);
    }
  }

  /** The pieces of two names: the first scaled by "Thousand", the second
      by the empty units word. */
  lemma PairPieces(a: string, b: string)
    requires a != [] && Tidy(a) && Tidy(b)
    ensures |SCALES| >= 2
    ensures ScaleFromRight([a, b], SCALES)
         == [a + " Thousand", if b == [] then [] else b + " "]
  {
    assert |SCALES| == 12 && SCALES[1] == "Thousand" && SCALES[0] == [];
    PairScaled(a, b, SCALES);
    ScaledTidy(a, "Thousand");
    ScaledTidy(b, []);
    assert a + " " + "Thousand" == a + " Thousand" by {
      AppendAssoc(a, " ", "Thousand");
      assert " " + "Thousand" == " Thousand";
    }
    assert b + " " + [] == b + " ";
  }

  /** Of two names, the first gets the second scale word of the table and
      the second gets the first. */
  lemma PairScaled(a: string, b: string, table: seq<string>)
    requires |table| >= 2
    ensures ScaleFromRight([a, b], table) == [Scaled(a, table[1]), Scaled(b, table[0])]
  {
    var qs := ScaleFromRight([a, b], table);
    ScaleFromRightAt([a, b], table, 0);
    ScaleFromRightAt([a, b], table, 1);
    assert qs == [qs[0], qs[1]];
  }

  /** A trimmed name is scaled by appending a space and the scale word. */
  lemma ScaledTidy(n: string, word: string)
    requires Tidy(n)
    ensures Scaled(n, word) == if n == [] then [] else n + " " + word
  {
  }

  /** A string with a non-space at each end keeps its text under `trim`
      when a space follows it. */
  lemma TrimPiecePad(s: string)
    requires s != [] && !IsSpace(s[0]) && !IsSpace(s[|s| - 1])
    ensures Trim(s + " ") == s
  {
    TrimDropsTrailing(s, " ");
  }

  /** An all-zero string of at most 36 digits names nothing. */
  lemma ConvertLtMaxZeros(val: string, useAnd: bool)
    requires IsDigits(val) && |val| <= MAX && AllZeros(val)
    ensures ConvertLtMax(val, useAnd) == []
  {
    ConvertLtMaxSpoken(val, useAnd);
    ValueZeroIffAllZeros(val);
    SpokenZero((|val| + 2) / 3, useAnd);
  }

  /** Zero is read as nothing, however many groups it is written with:
      every piece is empty and the spaces between them are trimmed. */
  lemma SpokenZero(k: nat, useAnd: bool)
    requires k <= GROUPS
    ensures Spoken(0, k, useAnd) == []
  {
    var ns := MapNames(Thousands(0, k), useAnd);
    forall j | 0 <= j < k
      ensures ns[j] == []
    {
      ZeroNameAt(k, useAnd, j);
    }
    TableSizes();
    ScaledEmpties(ns, SCALES);
  }

  /** Every base-1000 digit of zero is named by the empty string. */
  lemma ZeroNameAt(k: nat, useAnd: bool, j: nat)
    requires j < k
    ensures MapNames(Thousands(0, k), useAnd)[j] == []
  {
    ThousandsAt(0, k, j);
    DropThousandsZero(k - 1 - j);
    assert Thousands(0, k)[j] == 0;
    MapNamesAt(Thousands(0, k), useAnd, j);
    assert NameOf(0, useAnd) == [];
  }

  /** Empty names read as nothing, whatever their scale words. */
  lemma ScaledEmpties(names: seq<string>, table: seq<string>)
    requires |names| <= |table|
    requires forall j :: 0 <= j < |names| ==> names[j] == []
    ensures Trim(Join(ScaleFromRight(names, table), " ")) == []
  {
    var qs := ScaleFromRight(names, table);
    forall j | 0 <= j < |qs|
      ensures qs[j] == []
    {
      ScaleFromRightAt(names, table, j);
    }
    JoinEmpties(qs);
    TrimAllSpace(Join(qs, " "));
  }

  lemma {:induction false} DropThousandsZero(k: nat)
    ensures DropThousands(0, k) == 0
  {
    if k > 0 {
      DropThousandsZero(k - 1);
    }
  }

  /** Joining empty strings with spaces leaves only spaces. */
  lemma {:induction false} JoinEmpties(xs: seq<string>)
    requires forall i :: 0 <= i < |xs| ==> xs[i] == []
    ensures forall i :: 0 <= i < |Join(xs, " ")| ==> IsSpace(Join(xs, " ")[i])
    decreases |xs|
  {
    if |xs| > 1 {
      JoinEmpties(xs[1..]);
      assert Join(xs, " ") == " " + Join(xs[1..], " ");
    }
  }

  /** The first piece of a concatenation is its prefix. */
  lemma {:induction false} ConcatFirst(xs: seq<string>)
    requires |xs| > 0
    ensures |xs[0]| <= |Concat(xs)| && Concat(xs)[..|xs[0]|] == xs[0]
    decreases |xs|
  {
    if |xs| > 1 {
      var init := xs[..|xs| - 1];
      ConcatFirst(init);
      assert init[0] == xs[0];
    }
  }

  /** A number of at most 36 digits that does not start with zero is named
      by a non-empty phrase starting with a capital letter. */
  lemma ConvertLtMaxCapitalized(val: string, useAnd: bool)
    requires IsDigits(val) && 0 < |val| <= MAX && val[0] != '0'
    ensures |ConvertLtMax(val, useAnd)| > 0 && IsUpper(ConvertLtMax(val, useAnd)[0])
  {
    if |val| < 4 {
      assert !AllZeros(val);
      GroupSilentIffZero(val, useAnd);
      TrimKeepsFirst(ConvertLt1000(val, useAnd));
    } else {
      var gs := SplitRl(val, 3);
      ReentryUnreachable(val);
      LeadingGroup(val, useAnd);
      TableSizes();
      ScaledFirst(NameGroups(gs, useAnd), SCALES);
    }
  }

  /** The leftmost group of a number without a leading zero names a
      phrase. */
  lemma LeadingGroup(val: string, useAnd: bool)
    requires IsDigits(val) && 0 < |val| && val[0] != '0'
    ensures ThreeDigitGroups(SplitRl(val, 3))
    ensures Phrase(NameGroups(SplitRl(val, 3), useAnd)[0])
  {
    var gs := SplitRl(val, 3);
    SplitRlGroups(val);
    ConcatFirst(gs);
    assert gs[0][0] == val[0];
    assert !AllZeros(gs[0]);
    NameGroupsAt(gs, useAnd, 0);
    GroupSilentIffZero(gs[0], useAnd);
  }

  /** Scaled names whose first is a phrase read as text that starts with
      that phrase's capital letter. */
  lemma ScaledFirst(names: seq<string>, table: seq<string>)
    requires 0 < |names| <= |table| && Phrase(names[0])
    ensures |Trim(Join(ScaleFromRight(names, table), " "))| > 0
    ensures IsUpper(Trim(Join(ScaleFromRight(names, table), " "))[0])
  {
    var qs := ScaleFromRight(names, table);
    ScaleFromRightAt(names, table, 0);
    ScaledPhrase(names[0], table[|names| - 1]);
    JoinStartsWithFirst(qs, " ");
    TrimKeepsFirst(Join(qs, " "));
  }

  /** A scaled phrase starts where the phrase starts. */
  lemma ScaledPhrase(n: string, word: string)
    requires Phrase(n)
    ensures |Scaled(n, word)| > 0 && Scaled(n, word)[0] == n[0]
  {
    assert Trim(n) == n;
  }

  /** Every chunk is a digit string the scale table can name. */
  predicate Chunks(cs: seq<string>) {
    && (forall i :: 0 <= i < |cs| ==> IsDigits(cs[i]))
    && (forall i :: 0 <= i < |cs| ==> |cs[i]| <= MAX)
  }

  /** The 36-digit chunks of a digit string are chunks the scale table can
      name. */
  lemma SplitRlChunks(s: string)
    requires IsDigits(s)
    ensures Chunks(SplitRl(s, MAX))
  {
    SplitRlDigits(s, MAX);
  }

  /** The text for one chunk of `convert_max`: every chunk but the last is
      followed by the top scale word. */
  function ChunkText(chunk: string, notLast: bool, useAnd: bool): string
    requires IsDigits(chunk) && |chunk| <= MAX
  {
    if notLast then ConvertLtMax(chunk, useAnd) + " " + TOP_SCALE
    else ConvertLtMax(chunk, useAnd)
  }

  /** `.map(...)` over the chunks, marking all but the last. */
  function ChunkTexts(cs: seq<string>, useAnd: bool): (r: seq<string>)
    requires Chunks(cs)
    ensures |r| == |cs|
  {
    seq(|cs|, i requires 0 <= i < |cs| => ChunkText(cs[i], i < |cs| - 1, useAnd))
  }

  lemma ChunkTextsAt(cs: seq<string>, useAnd: bool, i: nat)
    requires Chunks(cs) && i < |cs|
    ensures IsDigits(cs[i]) && |cs[i]| <= MAX
    ensures ChunkTexts(cs, useAnd)[i] == ChunkText(cs[i], i < |cs| - 1, useAnd)
  {
  }

  /** `convert_max`: names a number of any length in chunks of 36 digits
      from the right, saying "Decillion" after every chunk but the last and
      joining with single spaces. The result is not trimmed. */
  function ConvertMax(val: string, useAnd: bool): string
    requires IsDigits(val)
  {
    SplitRlChunks(val);
    Join(ChunkTexts(SplitRl(val, MAX), useAnd), " ")
  }

  /** A number of at most 36 digits is one chunk. */
  lemma ConvertMaxShort(val: string, useAnd: bool)
    requires IsDigits(val) && 0 < |val| <= MAX
    ensures ConvertMax(val, useAnd) == ConvertLtMax(val, useAnd)
  {
    SplitRlShort(val, MAX);
    SplitRlChunks(val);
    ChunkTextsAt([val], useAnd, 0);
  }

  /** A number of any length that does not start with zero is named by
      text starting with a capital letter: its leftmost chunk leads. */
  lemma ConvertMaxCapitalized(val: string, useAnd: bool)
    requires IsDigits(val) && 0 < |val| && val[0] != '0'
    ensures |ConvertMax(val, useAnd)| > 0 && IsUpper(ConvertMax(val, useAnd)[0])
  {
    var cs := SplitRl(val, MAX);
    SplitRlChunks(val);
    ConcatFirst(cs);
    assert cs[0][0] == val[0];
    ConvertLtMaxCapitalized(cs[0], useAnd);
    ChunkTextsAt(cs, useAnd, 0);
    JoinStartsWithFirst(ChunkTexts(cs, useAnd), " ");
  }

  /** Longer numbers: everything before the last 36 digits is named on its
      own and followed by " Decillion ", then the last 36 digits. */
  lemma ConvertMaxStep(val: string, useAnd: bool)
    requires IsDigits(val) && |val| > MAX
    ensures IsDigits(val[..|val| - MAX]) && IsDigits(val[|val| - MAX..])
    ensures ConvertMax(val, useAnd)
         == ConvertMax(val[..|val| - MAX], useAnd) + " " + TOP_SCALE + " "
            + ConvertLtMax(val[|val| - MAX..], useAnd)
  {
    var front := val[..|val| - MAX];
    var last := val[|val| - MAX..];
    assert val == front + last;
    SplitRlLast(val, MAX);
    SplitRlChunks(val);
    SplitRlChunks(front);
    var fc := SplitRl(front, MAX);
    ChunkTextsSnoc(fc, last, useAnd);
  }

  /** Appending a chunk marks the previous last chunk and adds the new
      one's text after a space. */
  lemma ChunkTextsSnoc(fc: seq<string>, last: string, useAnd: bool)
    requires Chunks(fc) && Chunks(fc + [last]) && |fc| > 0
    ensures IsDigits(last) && |last| <= MAX
    ensures Join(ChunkTexts(fc + [last], useAnd), " ")
         == Join(ChunkTexts(fc, useAnd), " ") + " " + TOP_SCALE + " " + ConvertLtMax(last, useAnd)
  {
    var xs := ChunkTexts(fc, useAnd);
    var ys := ChunkTexts(fc + [last], useAnd);
    forall i | 0 <= i < |fc| - 1
      ensures ys[i] == xs[i]
    {
      ChunkTextsKept(fc, last, useAnd, i);
    }
    ChunkTextsMarked(fc, last, useAnd);
    JoinMarkLast(xs, ys, " ", TOP_SCALE, ConvertLtMax(last, useAnd), " ");
  }

  /** Chunks before the previous last one keep their text. */
  lemma ChunkTextsKept(fc: seq<string>, last: string, useAnd: bool, i: nat)
    requires Chunks(fc) && Chunks(fc + [last]) && i < |fc| - 1
    ensures ChunkTexts(fc + [last], useAnd)[i] == ChunkTexts(fc, useAnd)[i]
  {
    ChunkTextsAt(fc + [last], useAnd, i);
    ChunkTextsAt(fc, useAnd, i);
    assert (fc + [last])[i] == fc[i];
  }

  /** The previous last chunk gains the top scale word, and the new chunk
      is named on its own. */
  lemma ChunkTextsMarked(fc: seq<string>, last: string, useAnd: bool)
    requires Chunks(fc) && Chunks(fc + [last]) && |fc| > 0
    ensures IsDigits(last) && |last| <= MAX
    ensures |ChunkTexts(fc + [last], useAnd)| == |fc| + 1
    ensures ChunkTexts(fc + [last], useAnd)[|fc| - 1]
         == ChunkTexts(fc, useAnd)[|fc| - 1] + " " + TOP_SCALE
    ensures ChunkTexts(fc + [last], useAnd)[|fc|] == ConvertLtMax(last, useAnd)
  {
    var n := |fc|;
    ChunkTextsAt(fc + [last], useAnd, n - 1);
    ChunkTextsAt(fc, useAnd, n - 1);
    assert (fc + [last])[n - 1] == fc[n - 1];
    ChunkTextsAt(fc + [last], useAnd, n);
    assert (fc + [last])[n] == last;
  }

  /** Joining `xs` with its last element extended by `t` and one more
      element `x` appended. */
  lemma JoinMarkLast(xs: seq<string>, ys: seq<string>, a: string, b: string, x: string, sep: string)
    requires |xs| > 0 && |ys| == |xs| + 1
    requires forall i :: 0 <= i < |xs| - 1 ==> ys[i] == xs[i]
    requires ys[|xs| - 1] == xs[|xs| - 1] + a + b && ys[|xs|] == x
    ensures Join(ys, sep) == Join(xs, sep) + a + b + sep + x
  {
    var t := a + b;
    var zs := xs[..|xs| - 1] + [xs[|xs| - 1] + t];
    assert xs[|xs| - 1] + a + b == xs[|xs| - 1] + t;
    assert ys == zs + [x];
    JoinSnoc(zs, x, sep);
    JoinExtendLast(xs, t, sep);
    assert Join(xs, sep) + t == Join(xs, sep) + a + b;
  }

  /** Joining after extending the last element extends the joined string. */
  lemma {:induction false} JoinExtendLast(xs: seq<string>, t: string, sep: string)
    requires |xs| > 0
    ensures Join(xs[..|xs| - 1] + [xs[|xs| - 1] + t], sep) == Join(xs, sep) + t
    decreases |xs|
  {
    if |xs| == 1 {
      assert xs[..0] + [xs[0] + t] == [xs[0] + t];
    } else {
      var ys := xs[..|xs| - 1] + [xs[|xs| - 1] + t];
      assert ys[1..] == xs[1..][..|xs| - 2] + [xs[1..][|xs| - 2] + t];
      JoinExtendLast(xs[1..], t, sep);
    }
  }
}

=== FILE: currency.dfy ===
/**
 `toCurrency` (index.js:135-207): an amount read as a sign, a whole
 number of major units and two places of minor units, then spoken with
 the unit names of a currency.
 */
module Currency {
  import opened Text
  import opened Outcomes
  import opened Digits
  import opened Lexicon
  import opened Groups
  import opened Engine

  /** The singular and plural names of a currency's major and minor unit. */
  datatype Units = Units(major: string, majorPlural: string, minor: string, minorPlural: string)

  /** The options of `toCurrency`. */
  datatype CurrencyOptions = CurrencyOptions(
    currency: string,
    majorUnit: string,
    minorUnit: string,
    majorUnitPlural: string,
    minorUnitPlural: string,
    commaAs: CommaAs)

  /** The defaults: Bangladeshi taka, with dollar and cent names to fall
      back on and commas as thousands separators. */
  const CURRENCY_DEFAULTS := CurrencyOptions("BDT", "Dollar", "Cent", "Dollars", "Cents", ThousandsSep)

  /** The built-in currencies, keyed by upper-case code. */
  const CURRENCIES: map<string, Units> := map[
    "USD" := Units("Dollar", "Dollars", "Cent", "Cents"),
    "GBP" := Units("Pound", "Pounds", "Pence", "Pence"),
    "EUR" := Units("Euro", "Euros", "Cent", "Cents"),
    "INR" := Units("Rupee", "Rupees", "Paisa", "Paise"),
    "JPY" := Units("Yen", "Yen", "Sen", "Sen"),
    "BDT" := Units("Taka", "Taka", "Paisa", "Paisa")]

  /** The unit names the caller supplied (or their defaults). */
  function Supplied(opts: CurrencyOptions): Units {
    Units(opts.majorUnit, opts.majorUnitPlural, opts.minorUnit, opts.minorUnitPlural)
  }

  /** The caller's names are used as soon as either singular name differs
      from its default (the plurals are not compared); otherwise the
      table entry of the upper-cased code, and the caller's names again
      for a code the table does not know. */
  function ResolveUnits(opts: CurrencyOptions): (u: Units)
    ensures opts.majorUnit != "Dollar" || opts.minorUnit != "Cent" ==> u == Supplied(opts)
    ensures opts.majorUnit == "Dollar" && opts.minorUnit == "Cent" && Upper(opts.currency) in CURRENCIES
            ==> u == CURRENCIES[Upper(opts.currency)]
    ensures Upper(opts.currency) !in CURRENCIES ==> u == Supplied(opts)
  {
    if opts.majorUnit != "Dollar" || opts.minorUnit != "Cent" then Supplied(opts)
    else if Upper(opts.currency) in CURRENCIES then CURRENCIES[Upper(opts.currency)]
    else Supplied(opts)
  }

  /** An amount as `toCurrency` reads it: whether it is negative, the
      major amount, and the minor amount (`None` when it parses as NaN). */
  datatype Amount = Amount(negative: bool, major: int, minor: Option<int>)

  /** `parseInt(p) || 0`: NaN counts as zero. */
  function MajorAmount(p: string): int {
    match ParseInt(p)
    case None => 0
    case Some(n) => n
  }

  /** `f.padEnd(2, '0').slice(0, 2)`: the first two characters of `f`,
      with '0' standing in for the missing ones. */
  function TwoPlaces(f: string): (r: string)
    ensures |r| == 2
    ensures forall i :: 0 <= i < 2 ==> r[i] == if i < |f| then f[i] else '0'
  {
    if |f| >= 2 then f[..2] else f + seq(2 - |f|, _ => '0')
  }

  /** The minor amount: only a non-empty second piece is parsed, from its
      first two places; otherwise it is zero. */
  function MinorAmount(parts: seq<string>): Option<int> {
    if |parts| > 1 && parts[1] != [] then ParseInt(TwoPlaces(parts[1])) else Some(0)
  }

  /** Reads the cleaned-up input: a leading '-' marks it negative, and what
      follows is cut at its points. */
  function ReadAmount(s: string): (a: Amount)
    ensures a.negative <==> |s| > 0 && s[0] == '-'
  {
    var negative := |s| > 0 && s[0] == '-';
    var parts := Split(if negative then s[1..] else s, '.');
    Amount(negative, MajorAmount(parts[0]), MinorAmount(parts))
  }

  /** The major words: "Zero" for nothing, else the number's words, then
      the unit, singular exactly for one. */
  function MajorText(n: int, u: Units): (r: string)
    ensures |r| > 0 && IsUpper(r[0])
  {
    (if n == 0 then "Zero" else Cardinal(n)) + " " + (if n == 1 then u.major else u.majorPlural)
  }

  /** The minor words, present only for a positive minor amount, with the
      unit singular exactly for one. */
  function MinorText(m: Option<int>, u: Units): string {
    if m.Some? && m.value > 0 then
      " and " + Cardinal(m.value) + " " + (if m.value == 1 then u.minor else u.minorPlural)
    else []
  }

  /** The words of an amount without its sign. */
  function Unsigned(major: int, minor: Option<int>, u: Units): (r: string)
    ensures |r| > 0 && IsUpper(r[0])
  {
    MajorText(major, u) + MinorText(minor, u)
  }

  /** How an amount is spoken: "Negative " for the sign, then the words. */
  function Say(a: Amount, u: Units): (r: string)
    ensures |r| > 0 && IsUpper(r[0])
  {
    (if a.negative then "Negative " else "") + Unsigned(a.major, a.minor, u)
  }

  /** `toCurrency`. It never fails, and the final capitalization never
      changes anything: the result is exactly the spoken amount. */
  function ToCurrency(val: string, opts: CurrencyOptions): (r: string)
    ensures r == Say(ReadAmount(Normalize(val, opts.commaAs)), ResolveUnits(opts))
  {
    var text := Say(ReadAmount(Normalize(val, opts.commaAs)), ResolveUnits(opts));
    CapitalizeCapitalized(text);
    CapitalizeFirstLetter(text)
  }

  /** The minor amount a string of digits stands for, in hundredths: its
      first digit counts tens, its second digit units, the rest nothing. */
  function Hundredths(f: string): (c: nat)
    requires IsDigits(f)
    ensures c < 100
  {
    if f == [] then 0
    else 10 * DigitOf(f[0]) + (if |f| >= 2 then DigitOf(f[1]) else 0)
  }

  /** A non-empty run of fraction digits parses to its hundredths: "5" is
      50, "05" is 5 and "555" is 55. */
  lemma MinorDigits(parts: seq<string>, f: string)
    requires |parts| > 1 && parts[1] == f && IsDigits(f) && f != []
    ensures MinorAmount(parts) == Some(Hundredths(f))
  {
    var d := TwoPlaces(f);
    TwoPlacesValue(f);
    assert d + [] == d;
    ParseIntDecimal(d, []);
  }

  /** Padding and cutting to two places keeps digits, and their value is
      the hundredths. */
  lemma TwoPlacesValue(f: string)
    requires IsDigits(f) && f != []
    ensures IsDigits(TwoPlaces(f)) && Value(TwoPlaces(f)) == Hundredths(f)
  {
    var d := TwoPlaces(f);
    assert d[0] == f[0];
    assert IsDigits(d);
    SmallValue(d);
  }

  /** A digit run parses to its value, and the empty run to zero. */
  lemma MajorDigits(d: string)
    requires IsDigits(d)
    ensures MajorAmount(d) == Value(d)
  {
    if d != [] {
      assert d + [] == d;
      ParseIntDecimal(d, []);
    }
  }

  lemma NoPoint(d: string)
    requires IsDigits(d)
    ensures '.' !in d
  {
  }

  /** Digits, a point and digits read as the whole amount and the
      hundredths of the fraction. */
  lemma ReadDecimal(a: string, b: string)
    requires IsDigits(a) && IsDigits(b)
    ensures ReadAmount(a + "." + b) == Amount(false, Value(a), Some(Hundredths(b)))
  {
    var s := a + "." + b;
    NoPoint(a);
    NoPoint(b);
    SplitPoints(a, b, []);
    assert s[0] != '-' by {
      if a != [] {
        assert s[0] == a[0];
      }
    }
    assert ReadAmount(s) == Amount(false, MajorAmount(a), MinorAmount([a, b]));
    MajorDigits(a);
    if b != [] {
      MinorDigits([a, b], b);
    }
  }

  /** Digits alone read as a whole amount with no minor part. */
  lemma ReadWhole(a: string)
    requires IsDigits(a)
    ensures ReadAmount(a) == Amount(false, Value(a), Some(0))
  {
    NoPoint(a);
    SplitNone(a, '.');
    MajorDigits(a);
  }

  /** A leading '-' only sets the sign, unless what follows starts with
      another '-'. */
  lemma ReadMinus(x: string)
    requires x == [] || x[0] != '-'
    ensures ReadAmount("-" + x) == ReadAmount(x).(negative := true)
  {
    assert ("-" + x)[1..] == x;
  }

  /** A minor amount that is zero, negative or NaN says nothing. */
  lemma MinorOmitted(a: Amount, u: Units)
    requires a.minor.None? || a.minor.value <= 0
    ensures Say(a, u) == Say(a.(minor := Some(0)), u)
  {
  }

  /** `toCurrency` on digits, a point and digits. */
  lemma CurrencyDecimal(a: string, b: string, opts: CurrencyOptions)
    requires IsDigits(a) && IsDigits(b)
    ensures ToCurrency(a + "." + b, opts)
         == Say(Amount(false, Value(a), Some(Hundredths(b))), ResolveUnits(opts))
  {
    var s := a + "." + b;
    assert s[|a|] == '.';
    assert Tidy(s) && ',' !in s by {
      NoComma(a);
      NoComma(b);
    }
    ReadDecimal(a, b);
  }

  lemma NoComma(d: string)
    requires IsDigits(d)
    ensures ',' !in d && (d == [] || (!IsSpace(d[0]) && !IsSpace(d[|d| - 1])))
  {
  }

  /** `toCurrency` on a whole number of digits. */
  lemma CurrencyWhole(a: string, opts: CurrencyOptions)
    requires IsDigits(a)
    ensures ToCurrency(a, opts) == Say(Amount(false, Value(a), Some(0)), ResolveUnits(opts))
  {
    NoComma(a);
    assert Tidy(a);
    NormalizeMinus(a, opts.commaAs);
    ReadWhole(a);
  }

  /** Fraction digits that make no whole hundredth change nothing:
      "100.00" and "100.001" read like "100". */
  lemma ZeroCentsDropped(a: string, b: string, opts: CurrencyOptions)
    requires IsDigits(a) && IsDigits(b) && Hundredths(b) == 0
    ensures ToCurrency(a + "." + b, opts) == ToCurrency(a, opts)
  {
    CurrencyDecimal(a, b, opts);
    CurrencyWhole(a, opts);
  }

  /** A '-' in front of a clean amount puts "Negative " in front of its
      words. */
  lemma CurrencyNegative(x: string, opts: CurrencyOptions)
    requires Tidy(x) && ',' !in x && (x == [] || x[0] != '-')
    ensures ToCurrency("-" + x, opts) == "Negative " + ToCurrency(x, opts)
  {
    NormalizeMinus(x, opts.commaAs);
    ReadMinus(x);
    SayNegative(ReadAmount(x), ResolveUnits(opts));
  }

  /** The sign is spoken first, in front of everything else. */
  lemma SayNegative(a: Amount, u: Units)
    requires !a.negative
    ensures Say(a.(negative := true), u) == "Negative " + Say(a, u)
  {
    assert "" + Unsigned(a.major, a.minor, u) == Unsigned(a.major, a.minor, u);
  }

  /** A clean string, with or without a '-' in front, is left as it is. */
  lemma NormalizeMinus(x: string, commaAs: CommaAs)
    requires Tidy(x) && ',' !in x
    ensures Normalize(x, commaAs) == x && Normalize("-" + x, commaAs) == "-" + x
  {
    var s := "-" + x;
    assert s[|s| - 1] == if x == [] then '-' else x[|x| - 1];
    assert Tidy(s) && ',' !in s;
  }

  /** With thousands separators, commas are simply dropped. */
  lemma CurrencyCommas(val: string, opts: CurrencyOptions)
    requires opts.commaAs == ThousandsSep && Tidy(val) && Tidy(DeleteAll(val, ','))
    ensures ToCurrency(val, opts) == ToCurrency(DeleteAll(val, ','), opts)
  {
    DeleteAllIdempotent(val, ',');
  }

  /** With a decimal comma, a comma reads exactly as a point would. */
  lemma CurrencyDecimalComma(val: string, opts: CurrencyOptions)
    requires opts.commaAs == DecimalSep && Tidy(val)
    ensures ToCurrency(val, opts) == ToCurrency(ReplaceAll(val, ',', '.'), opts.(commaAs := ThousandsSep))
  {
    var p := ReplaceAll(val, ',', '.');
    assert ',' !in p;
    assert Tidy(p);
  }

  /** The code is matched without regard to case. */
  lemma CodeCaseInsensitive(opts: CurrencyOptions)
    ensures ResolveUnits(opts.(currency := Lower(opts.currency))) == ResolveUnits(opts)
  {
    UpperLower(opts.currency);
  }

  lemma UpperLower(s: string)
    ensures Upper(Lower(s)) == Upper(s)
  {
  }

  /** By default amounts are in taka and paisa. */
  lemma DefaultUnits()
    ensures ResolveUnits(CURRENCY_DEFAULTS) == Units("Taka", "Taka", "Paisa", "Paisa")
  {
    assert Upper("BDT") == "BDT";
  }

  /** An amount below one thousand with a minor amount below one hundred
      is spoken with the group names of both. */
  lemma SayBelowThousand(a: Amount, u: Units)
    requires 0 < a.major < 1000 && a.minor.Some? && 0 <= a.minor.value < 100
    ensures Say(a, u)
         == (if a.negative then "Negative " else "")
            + ((NameOf(a.major, false) + " " + (if a.major == 1 then u.major else u.majorPlural))
               + (if a.minor.value > 0
                  then " and " + NameOf(a.minor.value, false) + " " + (if a.minor.value == 1 then u.minor else u.minorPlural)
                  else ""))
  {
    MajorTextSmall(a.major, u);
    if a.minor.value > 0 {
      MinorTextSmall(a.minor.value, u);
    }
  }

  lemma MajorTextSmall(n: int, u: Units)
    requires 0 < n < 1000
    ensures MajorText(n, u) == NameOf(n, false) + " " + (if n == 1 then u.major else u.majorPlural)
  {
    CardinalSmall(n);
  }

  lemma MinorTextSmall(m: int, u: Units)
    requires 0 < m < 100
    ensures MinorText(Some(m), u) == " and " + NameOf(m, false) + " " + (if m == 1 then u.minor else u.minorPlural)
  {
    CardinalSmall(m);
  }

  /** "1.5" is one taka and fifty paisa: the fraction "5" is fifty
      hundredths. */
  lemma OneFifty()
    ensures ToCurrency("1.5", CURRENCY_DEFAULTS) == "One Taka and Fifty Paisa"
  {
    assert "1.5" == "1" + "." + "5";
    assert Value("1") == 1 && Hundredths("5") == 50;
    CurrencyDecimal("1", "5", CURRENCY_DEFAULTS);
    DefaultUnits();
    SayBelowThousand(Amount(false, 1, Some(50)), Units("Taka", "Taka", "Paisa", "Paisa"));
    NameExamples();
    OneFiftyText();
  }

  lemma OneFiftyText()
    ensures "" + (("One" + " " + "Taka") + (" and " + "Fifty" + " " + "Paisa")) == "One Taka and Fifty Paisa"
  {
  }

  /** "0.01" is zero taka and one paisa, both units singular or plural by
      their own amount. */
  lemma OnePaisa()
    ensures ToCurrency("0.01", CURRENCY_DEFAULTS) == "Zero Taka and One Paisa"
  {
    assert "0.01" == "0" + "." + "01";
    assert Value("0") == 0 && Hundredths("01") == 1;
    CurrencyDecimal("0", "01", CURRENCY_DEFAULTS);
    DefaultUnits();
    MinorTextSmall(1, Units("Taka", "Taka", "Paisa", "Paisa"));
    NameExamples();
    OnePaisaText();
  }

  lemma OnePaisaText()
    ensures "" + (("Zero" + " " + "Taka") + (" and " + "One" + " " + "Paisa")) == "Zero Taka and One Paisa"
  {
  }

  /** "25.5" is twenty-five taka and fifty paisa. */
  lemma TwentyFiveFifty()
    ensures ToCurrency("25.5", CURRENCY_DEFAULTS) == "Twenty-Five Taka and Fifty Paisa"
  {
    assert "25.5" == "25" + "." + "5";
    SmallValue("25");
    assert Value("25") == 25 && Hundredths("5") == 50;
    CurrencyDecimal("25", "5", CURRENCY_DEFAULTS);
    DefaultUnits();
    SayBelowThousand(Amount(false, 25, Some(50)), Units("Taka", "Taka", "Paisa", "Paisa"));
    NameExamples();
    TwentyFiveFiftyText();
  }

  lemma TwentyFiveFiftyText()
    ensures "" + (("Twenty-Five" + " " + "Taka") + (" and " + "Fifty" + " " + "Paisa"))
         == "Twenty-Five Taka and Fifty Paisa"
  {
  }

  /** "-25.5" is negative twenty-five taka and fifty paisa. */
  lemma NegativeTwentyFive()
    ensures ToCurrency("-25.5", CURRENCY_DEFAULTS) == "Negative Twenty-Five Taka and Fifty Paisa"
  {
    NegativeTwentyFiveInput();
    NegativeTwentyFiveText();
    CurrencyNegative("25.5", CURRENCY_DEFAULTS);
    TwentyFiveFifty();
  }

  lemma NegativeTwentyFiveInput()
    ensures "-25.5" == "-" + "25.5" && Tidy("25.5") && ',' !in "25.5"
  {
  }

  lemma NegativeTwentyFiveText()
    ensures "Negative " + "Twenty-Five Taka and Fifty Paisa" == "Negative Twenty-Five Taka and Fifty Paisa"
  {
  }

  /** Custom unit names win over the currency code: 42 credits. */
  lemma FortyTwoCredits()
    ensures ToCurrency("42", CURRENCY_DEFAULTS.(majorUnit := "Credit", majorUnitPlural := "Credits",
                                                minorUnit := "Point", minorUnitPlural := "Points"))
         == "Forty-Two Credits"
  {
    var opts := CURRENCY_DEFAULTS.(majorUnit := "Credit", majorUnitPlural := "Credits",
                                   minorUnit := "Point", minorUnitPlural := "Points");
    SmallValue("42");
    assert Value("42") == 42;
    CurrencyWhole("42", opts);
    SayBelowThousand(Amount(false, 42, Some(0)), Supplied(opts));
    NameExamples();
    FortyTwoText();
  }

  lemma FortyTwoText()
    ensures "" + (("Forty-Two" + " " + "Credits") + "") == "Forty-Two Credits"
  {
  }
}

=== FILE: digits.dfy ===
/**
 Decimal digit strings: their value, leading-zero stripping (`trim_zeros`),
 the number-to-string conversion JavaScript applies when a number is passed
 where a string is expected, and `parseInt` without a radix.
 */
module Digits {
  import opened Text
  import opened Outcomes

  predicate IsDigit(c: char) {
    '0' <= c <= '9'
  }

  predicate IsDigits(s: string) {
    forall i :: 0 <= i < |s| ==> IsDigit(s[i])
  }

  function DigitOf(c: char): (d: nat)
    requires IsDigit(c)
    ensures d < 10
  {
    c as int - '0' as int
  }

  function DigitChar(d: nat): (c: char)
    requires d < 10
    ensures IsDigit(c) && DigitOf(c) == d
  {
    ('0' as int + d) as char
  }

  /** The number a decimal digit string denotes, most significant digit
      first; the empty string denotes 0. */
  function Value(s: string): nat
    requires IsDigits(s)
  {
    if s == [] then 0 else Value(s[..|s| - 1]) * 10 + DigitOf(s[|s| - 1])
  }

  function Pow10(n: nat): (p: nat)
    ensures p >= 1
  {
    if n == 0 then 1 else 10 * Pow10(n - 1)
  }

  /** Powers of ten grow with the exponent. */
  lemma {:induction false} Pow10Monotone(a: nat, b: nat)
    requires a <= b
    ensures Pow10(a) <= Pow10(b)
    decreases b
  {
    if a < b {
      Pow10Monotone(a, b - 1);
    }
  }

  /** A string of n digits denotes less than 10^n. */
  lemma {:induction false} ValueBound(s: string)
    requires IsDigits(s)
    ensures Value(s) < Pow10(|s|)
    decreases |s|
  {
    if s != [] {
      ValueBound(s[..|s| - 1]);
    }
  }

  /** The value of a string of at most three digits, spelled out. */
  lemma SmallValue(s: string)
    requires IsDigits(s) && |s| <= 3
    ensures Value(s) < 1000
    ensures |s| == 1 ==> Value(s) == DigitOf(s[0])
    ensures |s| == 2 ==> Value(s) == DigitOf(s[0]) * 10 + DigitOf(s[1])
    ensures |s| == 3 ==> Value(s) == DigitOf(s[0]) * 100 + DigitOf(s[1]) * 10 + DigitOf(s[2])
  {
    if |s| >= 1 {
      assert s[..1][..0] == [];
    }
    if |s| >= 2 {
      assert s[..2][..1] == s[..1];
    }
    if |s| == 3 {
      assert s[..3] == s;
    }
  }

  /** One more digit on the right multiplies by ten and adds it. */
  lemma ValueSnoc(a: string, c: char)
    requires IsDigits(a) && IsDigit(c)
    ensures IsDigits(a + [c]) && Value(a + [c]) == Value(a) * 10 + DigitOf(c)
  {
    assert (a + [c])[..|a|] == a;
  }

  /** Three more digits on the right multiply by a thousand and add
      their value. */
  lemma ValueAppend3(a: string, b: string)
    requires IsDigits(a) && IsDigits(b) && |b| == 3
    ensures IsDigits(a + b) && Value(a + b) == Value(a) * 1000 + Value(b)
  {
    ValueSnoc(a, b[0]);
    ValueSnoc(a + [b[0]], b[1]);
    ValueSnoc(a + [b[0]] + [b[1]], b[2]);
    assert a + [b[0]] + [b[1]] + [b[2]] == a + b;
    ValueSnoc([], b[0]);
    ValueSnoc([b[0]], b[1]);
    ValueSnoc([b[0]] + [b[1]], b[2]);
    assert [] + [b[0]] == [b[0]];
    assert [b[0]] + [b[1]] + [b[2]] == b;
  }

  predicate AllZeros(s: string) {
    forall i :: 0 <= i < |s| ==> s[i] == '0'
  }

  /** The library's `trim_zeros`: leading '0' characters removed. */
  function TrimZeros(s: string): (r: string)
    ensures |r| <= |s| && r == s[|s| - |r|..]
    ensures AllZeros(s[..|s| - |r|])
    ensures r == [] || r[0] != '0'
    ensures r == [] <==> AllZeros(s)
    ensures IsDigits(s) ==> IsDigits(r)
    decreases |s|
  {
    if |s| > 0 && s[0] == '0' then
      var r := TrimZeros(s[1..]);
      ZerosStep(s, r);
      r
    else
      assert s[..0] == [];
      s
  }

  /** What `TrimZeros` keeps of the tail after a leading '0' is also what
      it keeps of the whole string. */
  lemma ZerosStep(s: string, r: string)
    requires |s| > 0 && s[0] == '0'
    requires |r| <= |s| - 1 && r == s[1..][|s| - 1 - |r|..]
    requires AllZeros(s[1..][..|s| - 1 - |r|])
    requires r == [] <==> AllZeros(s[1..])
    requires IsDigits(s[1..]) ==> IsDigits(r)
    ensures r == s[|s| - |r|..]
    ensures AllZeros(s[..|s| - |r|])
    ensures r == [] <==> AllZeros(s)
    ensures IsDigits(s) ==> IsDigits(r)
  {
    assert s[1..][|s| - 1 - |r|..] == s[|s| - |r|..];
    assert s[..|s| - |r|] == [s[0]] + s[1..][..|s| - 1 - |r|];
    assert AllZeros(s) <==> AllZeros(s[1..]);
    assert IsDigits(s) ==> IsDigits(s[1..]);
  }

  /** A leading zero does not change the value. */
  lemma {:induction false} ValueLeadingZero(t: string)
    requires IsDigits(t)
    ensures IsDigits("0" + t) && Value("0" + t) == Value(t)
    decreases |t|
  {
    if t != [] {
      assert ("0" + t)[..|"0" + t| - 1] == "0" + t[..|t| - 1];
      ValueLeadingZero(t[..|t| - 1]);
    }
  }

  /** Stripping leading zeros does not change the value. */
  lemma {:induction false} ValueTrimZeros(s: string)
    requires IsDigits(s)
    ensures Value(TrimZeros(s)) == Value(s)
    decreases |s|
  {
    if |s| > 0 && s[0] == '0' {
      ValueTrimZeros(s[1..]);
      assert s == "0" + s[1..];
      ValueLeadingZero(s[1..]);
    }
  }

  /** A digit string denotes zero exactly when all its digits are '0'. */
  lemma {:induction false} ValueZeroIffAllZeros(s: string)
    requires IsDigits(s)
    ensures Value(s) == 0 <==> AllZeros(s)
    decreases |s|
  {
    if s != [] {
      var s' := s[..|s| - 1];
      ValueZeroIffAllZeros(s');
      if AllZeros(s) {
        assert AllZeros(s');
      } else if AllZeros(s') {
        assert s[|s| - 1] != '0';
      }
    }
  }

  /** A digit string that does not start with '0' denotes at least
      10^(n-1). */
  lemma {:induction false} ValueLowerBound(s: string)
    requires IsDigits(s) && |s| > 0 && s[0] != '0'
    ensures Value(s) >= Pow10(|s| - 1)
    decreases |s|
  {
    if |s| > 1 {
      ValueLowerBound(s[..|s| - 1]);
    }
  }

  /** The decimal spelling of a natural number, as `String(n)` gives it. */
  function NatToString(n: nat): (r: string)
    ensures IsDigits(r) && |r| > 0
    ensures Value(r) == n
    ensures r[0] == '0' ==> r == "0"
    decreases n
  {
    if n < 10 then [DigitChar(n)]
    else
      var r := NatToString(n / 10) + [DigitChar(n % 10)];
      assert r[..|r| - 1] == NatToString(n / 10);
      r
  }

  /** A number below one thousand is written with one group of digits. */
  lemma NatToStringShort(n: nat)
    requires 0 < n < 1000
    ensures (|NatToString(n)| + 2) / 3 == 1
  {
    var d := NatToString(n);
    ValueLowerBound(d);
    assert Pow10(3) == 1000;
    if |d| >= 4 {
      Pow10Monotone(3, |d| - 1);
    }
  }

  /** The spelling of a positive number has no leading zero. */
  lemma NatToStringSignificant(n: nat)
    requires n > 0
    ensures !AllZeros(NatToString(n)) && TrimZeros(NatToString(n)) == NatToString(n)
  {
    ValueZeroIffAllZeros(NatToString(n));
  }

  /** The decimal spelling of an integer, with a '-' for negatives. */
  function IntToString(n: int): (r: string)
    ensures |r| > 0
    ensures n >= 0 ==> r == NatToString(n)
    ensures n < 0 ==> r == "-" + NatToString(-n)
  {
    if n < 0 then "-" + NatToString(-n) else NatToString(n)
  }

  /** Length of the run of decimal digits at the front of `s`. */
  function DigitRun(s: string): (k: nat)
    ensures k <= |s| && IsDigits(s[..k])
    ensures k < |s| ==> !IsDigit(s[k])
  {
    if s == [] || !IsDigit(s[0]) then 0
    else
      var k := 1 + DigitRun(s[1..]);
      assert s[..k] == [s[0]] + s[1..][..k - 1];
      k
  }

  predicate IsHexDigit(c: char) {
    IsDigit(c) || 'a' <= c <= 'f' || 'A' <= c <= 'F'
  }

  predicate IsHexDigits(s: string) {
    forall i :: 0 <= i < |s| ==> IsHexDigit(s[i])
  }

  function HexDigitOf(c: char): (d: nat)
    requires IsHexDigit(c)
    ensures d < 16
  {
    if IsDigit(c) then DigitOf(c)
    else if 'a' <= c <= 'f' then c as int - 'a' as int + 10
    else c as int - 'A' as int + 10
  }

  function HexValue(s: string): nat
    requires IsHexDigits(s)
  {
    if s == [] then 0 else HexValue(s[..|s| - 1]) * 16 + HexDigitOf(s[|s| - 1])
  }

  /** Length of the run of hexadecimal digits at the front of `s`. */
  function HexRun(s: string): (k: nat)
    ensures k <= |s| && IsHexDigits(s[..k])
    ensures k < |s| ==> !IsHexDigit(s[k])
  {
    if s == [] || !IsHexDigit(s[0]) then 0
    else
      var k := 1 + HexRun(s[1..]);
      assert s[..k] == [s[0]] + s[1..][..k - 1];
      k
  }

  /** The unsigned part of `parseInt`: a "0x"/"0X" prefix switches to
      base 16, and the longest run of digits that follows is the value.
      `None` stands for NaN (no digit at all). */
  function ParseUnsigned(u: string): (r: Option<nat>)
  {
    if |u| >= 2 && u[0] == '0' && (u[1] == 'x' || u[1] == 'X') then
      var h := u[2..][..HexRun(u[2..])];
      if h == [] then None else Some(HexValue(h))
    else
      var d := u[..DigitRun(u)];
      if d == [] then None else Some(Value(d))
  }

  /** The text after one optional leading sign. */
  function SignStripped(t: string): (u: string)
    ensures |u| <= |t|
  {
    if |t| > 0 && (t[0] == '-' || t[0] == '+') then t[1..] else t
  }

  /** `parseInt(s)` with no radix, read exactly: leading whitespace is
      skipped and one optional sign is taken before the unsigned part. */
  function ParseInt(s: string): (r: Option<int>)
  {
    var t := TrimStart(s);
    var negative := |t| > 0 && t[0] == '-';
    var u := SignStripped(t);
    match ParseUnsigned(u)
    case None => None
    case Some(n) => Some(if negative then -(n as int) else n as int)
  }

  /** `rest` ends the digit run `d`: it is empty or starts with a
      non-digit, and no "0x"/"0X" prefix forms, which needs `d` to be the
      single digit "0" followed by 'x' or 'X'. */
  predicate RunEnds(d: string, rest: string) {
    rest == [] || (!IsDigit(rest[0]) && (|d| != 1 || d[0] != '0' || (rest[0] != 'x' && rest[0] != 'X')))
  }

  /** A run of decimal digits that `rest` ends is read as that run. */
  lemma {:induction false} ParseUnsignedDecimal(d: string, rest: string)
    requires IsDigits(d) && |d| > 0
    requires RunEnds(d, rest)
    ensures ParseUnsigned(d + rest) == Some(Value(d))
  {
    var s := d + rest;
    DigitRunOf(d, rest);
    assert !(|s| >= 2 && s[0] == '0' && (s[1] == 'x' || s[1] == 'X')) by {
      if |s| >= 2 {
        if |d| >= 2 {
          assert s[1] == d[1];
        } else {
          assert s[1] == rest[0];
        }
      }
    }
    var k := DigitRun(s);
    assert s[..k] == d;
    assert ParseUnsigned(s) == if s[..k] == [] then None else Some(Value(s[..k]));
  }

  /** Such a run parses to its value. */
  lemma {:induction false} ParseIntDecimal(d: string, rest: string)
    requires IsDigits(d) && |d| > 0
    requires RunEnds(d, rest)
    ensures ParseInt(d + rest) == Some(Value(d))
  {
    var s := d + rest;
    DigitRunOf(d, rest);
    ParseUnsignedDecimal(d, rest);
    assert s[0] == d[0] && IsDigit(s[0]);
    assert TrimStart(s) == s;
    assert SignStripped(s) == s;
    assert ParseUnsigned(s) == Some(Value(d));
  }

  /** A whole digit string parses to its value, and with a leading '-' to
      the negated value. */
  lemma ParseIntDigits(d: string)
    requires IsDigits(d) && d != []
    ensures ParseInt(d) == Some(Value(d))
    ensures ParseInt("-" + d) == Some(-(Value(d) as int))
  {
    assert d + [] == d;
    assert "-" + d == ['-'] + (d + []);
    ParseIntDecimal(d, []);
    ParseIntNegative(d, []);
  }

  /** A signed or unsigned run of zeros reads as zero. */
  lemma ParseIntZeros(d: string)
    requires IsDigits(d) && d != [] && AllZeros(d)
    ensures ParseInt(d) == Some(0)
    ensures ParseInt("-" + d) == Some(0)
  {
    ValueZeroIffAllZeros(d);
    ParseIntDigits(d);
    NegatedZero(ParseInt("-" + d), Value(d));
  }

  lemma NegatedZero(p: Option<int>, v: nat)
    requires p == Some(-(v as int)) && v == 0
    ensures p == Some(0)
  {
  }

  /** With a '-' in front, the same run parses to the negated value. */
  lemma {:induction false} ParseIntNegative(d: string, rest: string)
    requires IsDigits(d) && |d| > 0
    requires RunEnds(d, rest)
    ensures ParseInt(['-'] + (d + rest)) == Some(-(Value(d) as int))
  {
    var s := ['-'] + (d + rest);
    ParseUnsignedDecimal(d, rest);
    assert s[0] == '-' && s[1..] == d + rest;
    assert TrimStart(s) == s;
    assert SignStripped(s) == d + rest;
  }

  lemma {:induction false} DigitRunOf(d: string, rest: string)
    requires IsDigits(d) && |d| > 0
    requires rest == [] || !IsDigit(rest[0])
    ensures DigitRun(d + rest) == |d| && (d + rest)[..|d|] == d
    ensures TrimStart(d + rest) == d + rest
    decreases |d|
  {
    var s := d + rest;
    assert s[..|d|] == d;
    assert s[1..] == d[1..] + rest;
    if |d| == 1 {
      assert s[1..] == rest;
    } else {
      DigitRunOf(d[1..], rest);
    }
  }

  /** `parseInt` finds no number exactly when, after the whitespace and the
      optional sign, a "0x"/"0X" prefix is followed by no hexadecimal
      digit, or there is no such prefix and no decimal digit comes first. */
  lemma ParseIntNaN(s: string)
    ensures ParseInt(s).None? <==> NoNumberAt(SignStripped(TrimStart(s)))
  {
    ParseUnsignedNone(SignStripped(TrimStart(s)));
  }

  /** No number starts `u`: after a "0x"/"0X" prefix no hexadecimal digit
      follows; without that prefix, `u` does not start with a decimal
      digit. */
  predicate NoNumberAt(u: string) {
    if |u| >= 2 && u[0] == '0' && (u[1] == 'x' || u[1] == 'X')
    then |u| == 2 || !IsHexDigit(u[2])
    else u == [] || !IsDigit(u[0])
  }

  /** The unsigned reader finds nothing exactly when no number starts its
      input. */
  lemma ParseUnsignedNone(u: string)
    ensures ParseUnsigned(u).None? <==> NoNumberAt(u)
  {
    if |u| >= 2 && u[0] == '0' && (u[1] == 'x' || u[1] == 'X') {
      if |u| > 2 && IsHexDigit(u[2]) {
        assert HexRun(u[2..]) > 0;
      }
    } else if u != [] && IsDigit(u[0]) {
      assert DigitRun(u) > 0;
    }
  }

  /** Input that starts with neither whitespace, a sign nor a digit has no
      number in front. */
  lemma NoDigitsNaN(s: string)
    requires s == [] || (!IsSpace(s[0]) && !IsDigit(s[0]) && s[0] != '-' && s[0] != '+')
    ensures ParseInt(s).None?
  {
    ParseIntNaN(s);
  }
}

=== FILE: engine.dfy ===
/**
 The entry point `number2wordEnglish` (index.js:32-96) and its decimal
 branch `convertDecimal` (index.js:104-122): input clean-up, the negative
 and decimal branches, validation, zero, and the choice between
 `convert_lt_max` and `convert_max`.
 */
module Engine {
  import opened Text
  import opened Outcomes
  import opened Digits
  import opened Lexicon
  import opened Groups
  import opened Compose

  /** How a comma in the input is read: dropped as a thousands separator,
      or turned into a decimal point. */
  datatype CommaAs = ThousandsSep | DecimalSep

  /** The options object of `number2wordEnglish`. */
  datatype Options = Options(capitalizeFirst: bool, useAnd: bool, commaAs: CommaAs)

  /** The options used when the caller gives none. */
  const DEFAULTS: Options := Options(true, false, ThousandsSep)

  /** The clean-up every input goes through: surrounding whitespace is
      trimmed, then commas are dropped or turned into points. */
  function Normalize(val: string, commaAs: CommaAs): (r: string)
    ensures ',' !in r
    ensures |r| <= |val|
    ensures Tidy(val) && ',' !in val ==> r == val
    ensures commaAs == ThousandsSep ==> r == DeleteAll(Trim(val), ',')
    ensures commaAs == DecimalSep ==> r == ReplaceAll(Trim(val), ',', '.')
  {
    var t := Trim(val);
    match commaAs
    case ThousandsSep => DeleteAll(t, ',')
    case DecimalSep =>
      var r := ReplaceAll(t, ',', '.');
      assert ',' !in t ==> r == t;
      r
  }

  /** The pattern `^-?\d*\.?\d+$` every accepted number must match: an
      optional minus, then either a non-empty digit run or two digit runs
      around one point, the second one non-empty. */
  predicate NumberPattern(s: string) {
    var t := if |s| > 0 && s[0] == '-' then s[1..] else s;
    var ps := Split(t, '.');
    if |ps| == 1 then IsDigits(t) && t != []
    else |ps| == 2 && IsDigits(ps[0]) && IsDigits(ps[1]) && ps[1] != []
  }

  /** With no sign and no point in the way, the pattern asks for exactly a
      non-empty run of digits. */
  lemma PlainPattern(s: string)
    requires (s == [] || s[0] != '-') && '.' !in s
    ensures NumberPattern(s) <==> IsDigits(s) && s != []
  {
  }

  /** Case of the result: kept, or lower-cased when the caller turned
      capitalization off. */
  function Cased(w: string, capitalizeFirst: bool): (r: string)
    ensures |r| == |w|
    ensures capitalizeFirst ==> r == w
  {
    if capitalizeFirst then w else Lower(w)
  }

  /** The recursion measure: the length, except that "0" (which the decimal
      branch substitutes for an empty integer part) counts as nothing. */
  function Measure(s: string): nat {
    if s == "0" then 0 else |s|
  }

  /** What a cleaned-up input leads to: rejected by the number pattern
      (which the caller reports with its own argument), or read, where a
      reading may itself be a rejection passed up from a nested call. */
  datatype Verdict = Rejected | Read(result: Result<string>)

  /** The result `Words` reports for a verdict on the cleaned-up form of
      `val`: a rejection names the caller's own argument. */
  function Reported(v: Verdict, val: string): (r: Result<string>)
    ensures v.Read? ==> r == v.result
    ensures v.Rejected? ==> r == Failure(InvalidNumber(val))
  {
    match v
    case Rejected => Failure(InvalidNumber(val))
    case Read(r) => r
  }

  /** `number2wordEnglish(val, opts)` for a string argument. Only the empty
      string is read as "Zero" before any clean-up, so it ignores
      `capitalizeFirst`. */
  function Words(val: string, opts: Options): (r: Result<string>)
    ensures val == [] ==> r == Success("Zero")
    ensures r.Failure? ==> r.error.InvalidNumber?
    decreases Measure(val), 2
  {
    if val == [] then Success("Zero")
    else
      var s := Normalize(val, opts.commaAs);
      assert val == "0" ==> s == "0";
      match ReadNormal(s, opts)
      case Rejected => Failure(InvalidNumber(val))
      case Read(r) => r
  }

  /** The branches of `number2wordEnglish` after the clean-up: a leading
      '-' reads the rest (capitalized, with default comma handling) after
      "Negative "; a point hands over to `convertDecimal`; anything else
      must be a numeral. */
  function ReadNormal(s: string, opts: Options): (v: Verdict)
    ensures v.Read? && v.result.Failure? ==> v.result.error.InvalidNumber?
    decreases Measure(s), 1
  {
    if |s| > 0 && s[0] == '-' then
      Read(Negated(Words(s[1..], Options(true, opts.useAnd, ThousandsSep)), opts.capitalizeFirst))
    else if '.' in s then Read(ConvertDecimal(s, opts))
    else if !NumberPattern(s) then Rejected
    else
      PlainPattern(s);
      Read(Success(Cased(ReadNumeral(s, opts.useAnd), opts.capitalizeFirst)))
  }

  /** The negative branch: a reading of the rest gets "Negative " in front
      (and is lower-cased as a whole when asked); a rejection of the rest
      is passed on. */
  function Negated(inner: Result<string>, capitalizeFirst: bool): (r: Result<string>)
    ensures inner.Failure? ==> r == inner
    ensures inner.Success? ==> r.Success? && |r.value| == |inner.value| + 9
    ensures inner.Success? ==> r == Success(Cased("Negative " + inner.value, capitalizeFirst))
  {
    match inner
    case Failure(e) => Failure(e)
    case Success(w) => Success(Cased("Negative " + w, capitalizeFirst))
  }

  /** What an accepted numeral reads as, before any lower-casing: "Zero"
      when every digit is zero, and otherwise the digits after the leading
      zeros, named by `convert_lt_max` below 36 digits and by
      `convert_max` from 36 on. */
  function ReadNumeral(s: string, useAnd: bool): (r: string)
    requires IsDigits(s) && s != []
  {
    if AllZeros(s) then "Zero"
    else
      var clean := TrimZeros(s);
      if |clean| < MAX then ConvertLtMax(clean, useAnd) else ConvertMax(clean, useAnd)
  }

  /** The word read for one digit after the point: the digit's name, and
      "Zero" for '0' or for any character that is not a digit. */
  function DigitWord(c: char): (r: string)
  {
    if IsDigit(c) && c != '0' then LT20[DigitOf(c)] else "Zero"
  }

  /** The words after "Point": one space-led word per character, as the
      loop appends them. */
  function DigitWords(d: string): (r: string)
  {
    Spaced(DigitNames(d))
  }

  /** The words for the part after the point: nothing when it is empty,
      otherwise " Point" and one word per character. */
  function PointWords(d: string): (r: string)
  {
    if d == [] then [] else " Point" + DigitWords(d)
  }

  /** The integer part of a decimal: the text before the first point, or
      "0" when there is none. */
  function IntegerPart(v: string): (r: string)
    requires '.' in v
    ensures r == "0" || |r| < |v|
  {
    var p := Split(v, '.')[0];
    if p == [] then "0" else p
  }

  /** The fraction part of a decimal: the text between the first point and
      the next one (or the end). */
  function FractionPart(v: string): (r: string)
    requires '.' in v
  {
    Split(v, '.')[1]
  }

  /** `convertDecimal(val, opts)`: the integer part read with
      capitalization on, followed by the words for the fraction part. The
      result is capitalized when asked for but never lower-cased. */
  function ConvertDecimal(v: string, opts: Options): (r: Result<string>)
    requires '.' in v
    ensures r.Failure? ==> r.error.InvalidNumber?
    decreases Measure(v), 0
  {
    match Words(IntegerPart(v), opts.(capitalizeFirst := true))
    case Failure(e) => Failure(e)
    case Success(w) =>
      var text := w + PointWords(FractionPart(v));
      Success(if opts.capitalizeFirst then CapitalizeFirstLetter(text) else text)
  }

  /** With capitalization on, every reading starts with a capital letter. */
  lemma {:induction false} WordsCapitalized(val: string, opts: Options)
    requires opts.capitalizeFirst && Words(val, opts).Success?
    ensures |Words(val, opts).value| > 0 && IsUpper(Words(val, opts).value[0])
    decreases Measure(val), 2
  {
    if val != [] {
      var s := Normalize(val, opts.commaAs);
      WordsRead(val, opts);
      if |s| > 0 && s[0] == '-' {
        var inner := Words(s[1..], Options(true, opts.useAnd, ThousandsSep));
        assert ReadNormal(s, opts) == Read(Negated(inner, true));
        if inner.Success? {
          assert ("Negative " + inner.value)[0] == 'N';
        }
      } else if '.' in s {
        assert ReadNormal(s, opts) == Read(ConvertDecimal(s, opts));
        DecimalCase(s, opts);
      } else if NumberPattern(s) {
        PlainRead(s, opts);
        ReadNumeralCapitalized(s, opts.useAnd);
      } else {
        PlainRejected(s, opts);
      }
    }
  }

  /** Every numeral reading starts with a capital letter. */
  lemma ReadNumeralCapitalized(s: string, useAnd: bool)
    requires IsDigits(s) && s != []
    ensures |ReadNumeral(s, useAnd)| > 0 && IsUpper(ReadNumeral(s, useAnd)[0])
  {
    if !AllZeros(s) {
      var clean := TrimZeros(s);
      if |clean| < MAX {
        ConvertLtMaxCapitalized(clean, useAnd);
      } else {
        ConvertMaxCapitalized(clean, useAnd);
      }
    }
  }

  /** A decimal reading does not depend on `capitalizeFirst`: the integer
      part is always read capitalized, and the result is never
      lower-cased. */
  lemma {:induction false} DecimalCase(v: string, opts: Options)
    requires '.' in v
    ensures ConvertDecimal(v, opts) == ConvertDecimal(v, opts.(capitalizeFirst := true))
    ensures Words(IntegerPart(v), opts.(capitalizeFirst := true)).Success? ==>
              ConvertDecimal(v, opts)
              == Success(Words(IntegerPart(v), opts.(capitalizeFirst := true)).value + PointWords(FractionPart(v)))
    ensures ConvertDecimal(v, opts).Success? ==>
              |ConvertDecimal(v, opts).value| > 0 && IsUpper(ConvertDecimal(v, opts).value[0])
    decreases Measure(v), 0
  {
    var inner := opts.(capitalizeFirst := true);
    assert inner == opts.(capitalizeFirst := true).(capitalizeFirst := true);
    var r := Words(IntegerPart(v), inner);
    if r.Success? {
      WordsCapitalized(IntegerPart(v), inner);
      var w := r.value;
      var text := w + PointWords(FractionPart(v));
      assert text[0] == w[0];
      CapitalizeCapitalized(text);
    }
  }

  /** A plain numeral needs no clean-up and is always accepted. */
  lemma NumeralAccepted(val: string, opts: Options)
    requires IsDigits(val) && val != []
    ensures Normalize(val, opts.commaAs) == val
    ensures Words(val, opts) == Success(Cased(ReadNumeral(val, opts.useAnd), opts.capitalizeFirst))
  {
    assert !IsSpace(val[0]) && !IsSpace(val[|val| - 1]);
    assert ',' !in val && '.' !in val && val[0] != '-';
    PlainPattern(val);
  }

  /** A numeral with fewer than 36 significant digits is read as the
      number it denotes, three digits to a scale word. */
  lemma NumeralSpoken(val: string, useAnd: bool)
    requires IsDigits(val) && !AllZeros(val) && |TrimZeros(val)| < MAX
    ensures (|TrimZeros(val)| + 2) / 3 <= GROUPS
    ensures ReadNumeral(val, useAnd) == Spoken(Value(val), (|TrimZeros(val)| + 2) / 3, useAnd)
  {
    var clean := TrimZeros(val);
    assert ReadNumeral(val, useAnd) == ConvertLtMax(clean, useAnd);
    ConvertLtMaxSpoken(clean, useAnd);
    ValueTrimZeros(val);
    assert Value(clean) == Value(val);
  }

  /** The same, stated on the entry point. */
  lemma WordsNumeral(val: string, opts: Options)
    requires IsDigits(val) && !AllZeros(val) && |TrimZeros(val)| < MAX
    ensures (|TrimZeros(val)| + 2) / 3 <= GROUPS
    ensures Words(val, opts)
         == Success(Cased(Spoken(Value(val), (|TrimZeros(val)| + 2) / 3, opts.useAnd), opts.capitalizeFirst))
  {
    NumeralAccepted(val, opts);
    NumeralSpoken(val, opts.useAnd);
  }

  /** A numeral of zeros only is read as "Zero" (lower-cased when asked). */
  lemma WordsZero(val: string, opts: Options)
    requires IsDigits(val) && val != [] && AllZeros(val)
    ensures Words(val, opts) == Success(Cased("Zero", opts.capitalizeFirst))
  {
    NumeralAccepted(val, opts);
  }

  /** A leading zero does not change what a numeral reads as. */
  lemma NumeralLeadingZero(val: string, useAnd: bool)
    requires IsDigits(val) && val != []
    ensures IsDigits("0" + val)
    ensures ReadNumeral("0" + val, useAnd) == ReadNumeral(val, useAnd)
  {
    var z := "0" + val;
    assert z[1..] == val;
    assert AllZeros(z) <==> AllZeros(val);
  }

  /** Leading zeros do not change the reading. */
  lemma LeadingZero(val: string, opts: Options)
    requires IsDigits(val) && val != []
    ensures Words("0" + val, opts) == Words(val, opts)
  {
    NumeralLeadingZero(val, opts.useAnd);
    NumeralAccepted(val, opts);
    NumeralAccepted("0" + val, opts);
  }

  /** Apart from the empty string, an input is judged only by its cleaned
      form: two inputs that clean up alike are accepted alike and read
      alike. */
  lemma SameNormalForm(a: string, b: string, opts: Options)
    requires a != [] && b != [] && Normalize(a, opts.commaAs) == Normalize(b, opts.commaAs)
    ensures Words(a, opts).Success? <==> Words(b, opts).Success?
    ensures Words(a, opts).Success? ==> Words(a, opts) == Words(b, opts)
  {
  }

  /** In thousands mode commas are ignored wherever they stand: an input
      reads as the same input without its commas, provided neither has
      whitespace at its ends. Only an input of nothing but commas differs,
      being rejected where "" reads "Zero". */
  lemma CommasDropped(val: string, opts: Options)
    requires opts.commaAs == ThousandsSep && Tidy(val) && Tidy(DeleteAll(val, ','))
    ensures Words(val, opts).Success? ==> Words(val, opts) == Words(DeleteAll(val, ','), opts)
    ensures DeleteAll(val, ',') != [] ==>
              (Words(val, opts).Success? <==> Words(DeleteAll(val, ','), opts).Success?)
  {
    var d := DeleteAll(val, ',');
    if val != [] && d != [] {
      assert Normalize(val, opts.commaAs) == d;
      assert Normalize(d, opts.commaAs) == d;
      SameNormalForm(val, d, opts);
    } else if val != [] {
      assert Normalize(val, opts.commaAs) == [];
      WordsRead(val, opts);
      assert !NumberPattern([]);
      assert ReadNormal([], opts) == Rejected;
    }
  }

  /** In decimal mode every comma is a point: an input reads as the same
      input with its commas turned into points, read in thousands mode.
      Errors agree too: a comma leaves a point behind, and an input with a
      point is never rejected as a whole, only inside `convertDecimal`. */
  lemma DecimalComma(val: string, opts: Options)
    requires opts.commaAs == DecimalSep && Tidy(val)
    ensures Words(val, opts) == Words(ReplaceAll(val, ',', '.'), opts.(commaAs := ThousandsSep))
  {
    var p := ReplaceAll(val, ',', '.');
    assert ',' !in p;
    if ',' in val {
      var k :| 0 <= k < |val| && val[k] == ',';
      assert p[k] == '.';
      assert Tidy(p);
      assert Normalize(val, opts.commaAs) == p;
      assert Normalize(p, opts.commaAs) == p;
      PointNeverRejected(p, opts);
      WordsRead(val, opts);
      WordsRead(p, opts);
    } else {
      assert p == val;
    }
    CommaModeIrrelevant(p, opts, ThousandsSep);
  }

  /** A cleaned input holding a point always gets a reading: it goes to
      the negative branch or to `convertDecimal`, never to the final
      rejection. */
  lemma PointNeverRejected(s: string, opts: Options)
    requires '.' in s
    ensures ReadNormal(s, opts).Read?
  {
  }

  /** An input without commas reads the same in either comma mode. */
  lemma {:induction false} CommaModeIrrelevant(x: string, opts: Options, c: CommaAs)
    requires ',' !in x
    ensures Words(x, opts) == Words(x, opts.(commaAs := c))
    decreases Measure(x), 2
  {
    if x != [] {
      var o2 := opts.(commaAs := c);
      NormalizeCommaFree(x, opts.commaAs);
      NormalizeCommaFree(x, c);
      var s := Trim(x);
      if !(|s| > 0 && s[0] == '-') && '.' in s {
        var ip := IntegerPart(s);
        SplitFirstKeepsOut(s, '.', ',');
        assert x != "0";
        assert Measure(ip) < Measure(x);
        CommaModeIrrelevant(ip, opts.(capitalizeFirst := true), c);
      }
      ReadNormalModes(s, opts, c);
      WordsRead(x, opts);
      WordsRead(x, o2);
    }
  }

  /** Without commas, the clean-up is the trim, in either mode. */
  lemma NormalizeCommaFree(x: string, commaAs: CommaAs)
    requires ',' !in x
    ensures Normalize(x, commaAs) == Trim(x)
    ensures ',' !in Trim(x)
  {
    TrimKeepsOut(x, ',');
    assert ReplaceAll(Trim(x), ',', '.') == Trim(x);
  }

  /** The comma mode reaches the branches only through the integer part
      of a decimal. */
  lemma ReadNormalModes(s: string, opts: Options, c: CommaAs)
    requires !(|s| > 0 && s[0] == '-') && '.' in s ==>
               Words(IntegerPart(s), opts.(capitalizeFirst := true))
               == Words(IntegerPart(s), opts.(capitalizeFirst := true).(commaAs := c))
    ensures ReadNormal(s, opts) == ReadNormal(s, opts.(commaAs := c))
  {
    var o2 := opts.(commaAs := c);
    if !(|s| > 0 && s[0] == '-') && '.' in s {
      assert opts.(capitalizeFirst := true).(commaAs := c) == o2.(capitalizeFirst := true);
      assert ConvertDecimal(s, opts) == ConvertDecimal(s, o2);
    }
  }

  /** "10,58" in decimal mode is "Ten Point Five Eight". */
  lemma TenPointFiveEight()
    ensures Words("10,58", Options(true, false, DecimalSep)) == Success("Ten Point Five Eight")
  {
    var o := Options(true, false, DecimalSep);
    TenPointFiveEightInput();
    DecimalComma("10,58", o);
    DecimalReading("10", "58", o.(commaAs := ThousandsSep));
    TenWords();
    FiveEightWords();
  }

  lemma TenPointFiveEightInput()
    ensures Tidy("10,58")
    ensures ReplaceAll("10,58", ',', '.') == "10" + "." + "58"
    ensures IsDigits("10") && IsDigits("58")
  {
    assert ReplaceAll("10,58", ',', '.')[2] == '.';
  }

  lemma TenWords()
    ensures ReadNumeral("10", false) == "Ten"
  {
    var d := "10";
    assert d[0] == '1' && d[1] == '0';
    assert !AllZeros(d);
    assert TrimZeros(d) == d;
    assert Value(d) == 10;
    ShortGroup(d, false);
    NameOfSmall(10, false);
    DecimalExampleWords();
    assert Trim("Ten") == "Ten" by { assert Tidy("Ten"); }
  }

  lemma FiveEightWords()
    ensures "Ten" + PointWords("58") == "Ten Point Five Eight"
  {
    FiveEightNames();
    assert PointWords("58") == " Point" + Spaced(["Five", "Eight"]);
    FiveEightSpaced();
  }

  lemma FiveEightNames()
    ensures DigitNames("58") == ["Five", "Eight"]
  {
    DecimalExampleWords();
    assert DigitWord('5') == LT20[5];
    assert DigitWord('8') == LT20[8];
  }

  lemma FiveEightSpaced()
    ensures "Ten" + (" Point" + Spaced(["Five", "Eight"])) == "Ten Point Five Eight"
  {
    assert Spaced(["Eight"]) == " Eight" + Spaced([]);
    assert Spaced(["Five", "Eight"]) == " Five" + Spaced(["Eight"]);
  }

  /** An input of whitespace only is rejected; only the empty string itself
      reads as "Zero". */
  lemma BlankRejected(val: string, opts: Options)
    requires val != [] && forall i :: 0 <= i < |val| ==> IsSpace(val[i])
    ensures Words(val, opts) == Failure(InvalidNumber(val))
  {
    TrimAllSpace(val);
    assert Normalize(val, opts.commaAs) == [];
  }

  /** An input with no sign, point or comma and no surrounding whitespace is
      accepted exactly when it is a numeral, and is otherwise reported as
      an invalid number. */
  lemma PlainValidation(val: string, opts: Options)
    requires Tidy(val) && val != [] && val[0] != '-' && ',' !in val && '.' !in val
    ensures Words(val, opts).Success? <==> IsDigits(val)
    ensures Words(val, opts).Failure? ==> Words(val, opts).error == InvalidNumber(val)
  {
    PlainPattern(val);
  }

  /** An input holding a point, with nothing to clean up and no sign, is
      read by `convertDecimal`. */
  lemma DecimalBranch(v: string, opts: Options)
    requires '.' in v && Tidy(v) && ',' !in v && v[0] != '-'
    ensures Words(v, opts) == ConvertDecimal(v, opts)
  {
  }

  /** The pieces around the first two points of `a.b.c`, for `a` and `b`
      without points. */
  lemma SplitPoints(a: string, b: string, c: string)
    requires '.' !in a && '.' !in b
    ensures Split(a + "." + b, '.') == [a, b]
    ensures |Split(a + "." + b + "." + c, '.')| >= 2
    ensures Split(a + "." + b + "." + c, '.')[0] == a && Split(a + "." + b + "." + c, '.')[1] == b
  {
    SplitAt(a, '.', b);
    SplitNone(b, '.');
    SplitAt(b, '.', c);
    assert a + "." + b + "." + c == a + ['.'] + (b + ['.'] + c);
    SplitAt(a, '.', b + ['.'] + c);
  }

  /** `convertDecimal` on a string whose first two pieces are digit runs:
      the integer part (zero when empty) read as a numeral, then the words
      for the second piece. Capitalization plays no part. */
  lemma DecimalPieces(v: string, a: string, b: string, opts: Options)
    requires '.' in v && IsDigits(a) && IsDigits(b)
    requires Split(v, '.')[0] == a && Split(v, '.')[1] == b
    ensures ConvertDecimal(v, opts)
         == Success(ReadNumeral(if a == [] then "0" else a, opts.useAnd) + PointWords(b))
  {
    NumeralAccepted(IntegerPart(v), opts.(capitalizeFirst := true));
    DecimalCase(v, opts);
  }

  /** "a.b" for digit runs `a` and `b` is read as above. */
  lemma DecimalReading(a: string, b: string, opts: Options)
    requires IsDigits(a) && IsDigits(b)
    ensures Words(a + "." + b, opts)
         == Success(ReadNumeral(if a == [] then "0" else a, opts.useAnd) + PointWords(b))
  {
    var v := a + "." + b;
    assert v[|a|] == '.';
    assert !IsSpace(v[0]) && !IsSpace(v[|v| - 1]);
    DecimalBranch(v, opts);
    SplitPoints(a, b, []);
    DecimalPieces(v, a, b, opts);
  }

  /** Only the part between the first and the second point is read: the
      rest of the input is ignored. */
  lemma SecondPointIgnored(a: string, b: string, c: string, opts: Options)
    requires IsDigits(a) && IsDigits(b) && Tidy(c) && ',' !in c
    ensures Words(a + "." + b + "." + c, opts) == Words(a + "." + b, opts)
  {
    var v := a + "." + b;
    var w := a + "." + b + "." + c;
    assert v[|a|] == '.' && w[|a|] == '.';
    assert !IsSpace(v[0]) && !IsSpace(v[|v| - 1]);
    assert !IsSpace(w[0]) && !IsSpace(w[|w| - 1]);
    assert w == v + "." + c;
    DecimalBranch(v, opts);
    DecimalBranch(w, opts);
    SplitPoints(a, b, c);
  }

  /** Whether an input goes straight to `convertDecimal`: after clean-up it
      holds a point and does not start with a minus. */
  predicate ReadsAsDecimal(val: string, commaAs: CommaAs) {
    var s := Normalize(val, commaAs);
    '.' in s && !(|s| > 0 && s[0] == '-')
  }

  /** Non-negative decimals, which go straight to `convertDecimal`, and
      the empty string read the same whether `capitalizeFirst` is on or
      off: they are never lower-cased. A negative decimal takes the
      negation path and is lower-cased (`LowerCaseReading`). */
  lemma DecimalIgnoresCase(val: string, opts: Options)
    requires val == [] || ReadsAsDecimal(val, opts.commaAs)
    ensures Words(val, opts.(capitalizeFirst := false)) == Words(val, opts.(capitalizeFirst := true))
  {
    if val != [] {
      var s := Normalize(val, opts.commaAs);
      var on := opts.(capitalizeFirst := true);
      var off := opts.(capitalizeFirst := false);
      assert off.(capitalizeFirst := true) == on;
      DecimalCase(s, off);
      WordsRead(val, on);
      WordsRead(val, off);
      assert ReadNormal(s, on) == Read(ConvertDecimal(s, on));
      assert ReadNormal(s, off) == Read(ConvertDecimal(s, off));
    }
  }

  /** `off` is what `on` becomes with capitalization turned off: the same
      rejection, or the reading lower-cased. */
  predicate LowerOf(on: Result<string>, off: Result<string>) {
    && (on.Failure? ==> off == on)
    && (on.Success? ==> off == Success(Lower(on.value)))
  }

  /** Every other input is lower-cased as a whole when `capitalizeFirst` is
      off, a leading "Negative" included, and is rejected alike either
      way. */
  lemma LowerCaseReading(val: string, opts: Options)
    requires val != [] && !ReadsAsDecimal(val, opts.commaAs)
    ensures LowerOf(Words(val, opts.(capitalizeFirst := true)), Words(val, opts.(capitalizeFirst := false)))
  {
    var s := Normalize(val, opts.commaAs);
    var on := opts.(capitalizeFirst := true);
    var off := opts.(capitalizeFirst := false);
    if |s| > 0 && s[0] == '-' {
      NegativeLower(s, opts);
    } else if NumberPattern(s) {
      PlainRead(s, on);
      PlainRead(s, off);
      CasedLower(ReadNumeral(s, opts.useAnd));
    } else {
      PlainRejected(s, on);
      PlainRejected(s, off);
    }
    assert LowerVerdict(ReadNormal(s, on), ReadNormal(s, off));
    WordsRead(val, on);
    WordsRead(val, off);
    LowerReported(ReadNormal(s, on), ReadNormal(s, off), val);
  }

  /** A non-empty input is reported as the verdict on its cleaned-up form. */
  lemma WordsRead(val: string, opts: Options)
    requires val != []
    ensures Words(val, opts) == Reported(ReadNormal(Normalize(val, opts.commaAs), opts), val)
  {
  }

  /** `off` is `on` lower-cased, verdict for verdict. */
  predicate LowerVerdict(on: Verdict, off: Verdict) {
    && (on.Rejected? <==> off.Rejected?)
    && (on.Read? && off.Read? ==> LowerOf(on.result, off.result))
  }

  /** Lower-cased verdicts are reported as lower-cased results. */
  lemma LowerReported(on: Verdict, off: Verdict, val: string)
    requires LowerVerdict(on, off)
    ensures LowerOf(Reported(on, val), Reported(off, val))
  {
  }

  /** A leading '-' reads as "Negative " in front of the rest, which is
      read with capitalization on and commas as thousands separators; a
      rejection of the rest is passed on. */
  lemma NegativeWords(x: string, opts: Options)
    requires Tidy("-" + x) && ',' !in x
    ensures Words("-" + x, opts)
         == Negated(Words(x, Options(true, opts.useAnd, ThousandsSep)), opts.capitalizeFirst)
  {
    var v := "-" + x;
    assert v[0] == '-' && v[1..] == x;
    assert ',' !in v;
    assert Normalize(v, opts.commaAs) == v;
    WordsRead(v, opts);
  }

  /** The negative branch lower-cases its whole reading. */
  lemma NegativeLower(s: string, opts: Options)
    requires |s| > 0 && s[0] == '-'
    ensures ReadNormal(s, opts.(capitalizeFirst := true)).Read?
    ensures ReadNormal(s, opts.(capitalizeFirst := false)).Read?
    ensures LowerOf(ReadNormal(s, opts.(capitalizeFirst := true)).result,
                    ReadNormal(s, opts.(capitalizeFirst := false)).result)
  {
    var x := Words(s[1..], Options(true, opts.useAnd, ThousandsSep));
    assert ReadNormal(s, opts.(capitalizeFirst := true)) == Read(Negated(x, true));
    assert ReadNormal(s, opts.(capitalizeFirst := false)) == Read(Negated(x, false));
  }

  /** A numeral after the clean-up is read by `ReadNumeral`. */
  lemma PlainRead(s: string, opts: Options)
    requires !(|s| > 0 && s[0] == '-') && '.' !in s && NumberPattern(s)
    ensures IsDigits(s) && s != []
    ensures ReadNormal(s, opts) == Read(Success(Cased(ReadNumeral(s, opts.useAnd), opts.capitalizeFirst)))
  {
    PlainPattern(s);
  }

  /** Capitalization off is the lower-cased reading. */
  lemma CasedLower(w: string)
    ensures LowerOf(Success(Cased(w, true)), Success(Cased(w, false)))
  {
  }

  /** Without a sign or a point, anything but a numeral is rejected. */
  lemma PlainRejected(s: string, opts: Options)
    requires !(|s| > 0 && s[0] == '-') && '.' !in s && !NumberPattern(s)
    ensures ReadNormal(s, opts) == Rejected
  {
  }

  /** A minus sign followed by a numeral needs no clean-up. */
  lemma SignedNumeral(d: string)
    requires IsDigits(d) && d != []
    ensures Tidy("-" + d) && ',' !in "-" + d
    ensures ("-" + d)[0] == '-' && ("-" + d)[1..] == d
  {
    var v := "-" + d;
    assert v[|v| - 1] == d[|d| - 1];
  }

  /** A leading minus before a numeral reads as "Negative " and the
      numeral's reading; "-0" reads as "Negative Zero". */
  lemma NegativeReading(d: string, opts: Options)
    requires IsDigits(d) && d != []
    ensures Words("-" + d, opts)
         == Success(Cased("Negative " + ReadNumeral(d, opts.useAnd), opts.capitalizeFirst))
  {
    SignedNumeral(d);
    NumeralAccepted(d, Options(true, opts.useAnd, ThousandsSep));
  }

  /** A digit other than '0' standing alone is named by its table word. */
  lemma SingleDigit(c: char, useAnd: bool)
    requires IsDigit(c) && c != '0'
    ensures ConvertLtMax([c], useAnd) == LT20[DigitOf(c)]
  {
    assert Value([c]) == DigitOf(c) && 0 < DigitOf(c) < 20;
    ShortGroup([c], useAnd);
    NameOfSmall(DigitOf(c), useAnd);
  }

  /** A digit after the point is read exactly as that digit would be read
      on its own. */
  lemma DigitWordIsNumeral(c: char, useAnd: bool)
    requires IsDigit(c)
    ensures ReadNumeral([c], useAnd) == DigitWord(c)
  {
    if c != '0' {
      assert TrimZeros([c]) == [c];
      SingleDigit(c, useAnd);
    }
  }

  /** The word for each character after the point, in order. */
  function DigitNames(d: string): (r: seq<string>)
    ensures |r| == |d|
    ensures forall i :: 0 <= i < |d| ==> r[i] == DigitWord(d[i])
  {
    seq(|d|, i requires 0 <= i < |d| => DigitWord(d[i]))
  }

  /** The fraction words are the digit words joined by single spaces, after
      " Point ". */
  lemma PointWordsJoin(d: string)
    requires d != []
    ensures PointWords(d) == " Point " + Join(DigitNames(d), " ")
  {
    SpacedJoin(DigitNames(d));
    assert " Point" + (" " + Join(DigitNames(d), " ")) == " Point " + Join(DigitNames(d), " ");
  }

  /** An integer's decimal spelling is always accepted. */
  lemma CardinalAccepted(n: int)
    ensures Words(IntToString(n), DEFAULTS).Success?
  {
    if n < 0 {
      NegativeReading(NatToString(-n), DEFAULTS);
    } else {
      NumeralAccepted(NatToString(n), DEFAULTS);
    }
  }

  /** `number2wordEnglish(n)` for an integer argument `n`: its decimal
      spelling read with the default options. */
  function Cardinal(n: int): (r: string)
    ensures |r| > 0 && IsUpper(r[0])
  {
    CardinalAccepted(n);
    WordsCapitalized(IntToString(n), DEFAULTS);
    Words(IntToString(n), DEFAULTS).value
  }

  /** Zero is "Zero". */
  lemma CardinalZero()
    ensures Cardinal(0) == "Zero"
  {
    WordsZero("0", DEFAULTS);
  }

  /** A negative number reads as "Negative " and the reading of its
      magnitude. */
  lemma CardinalNegative(n: nat)
    requires n > 0
    ensures Cardinal(-(n as int)) == "Negative " + Cardinal(n)
  {
    var d := NatToString(n);
    NegativeReading(d, DEFAULTS);
    NumeralAccepted(d, DEFAULTS);
  }

  /** A positive number of fewer than 36 digits reads as its base-1000
      digits named and scaled. */
  lemma CardinalSpoken(n: nat)
    requires 0 < n && |NatToString(n)| < MAX
    ensures (|NatToString(n)| + 2) / 3 <= GROUPS
    ensures Cardinal(n) == Spoken(n, (|NatToString(n)| + 2) / 3, false)
  {
    NatToStringSignificant(n);
    WordsNumeral(NatToString(n), DEFAULTS);
  }

  /** A number below one thousand reads as its name, with no surrounding
      space. */
  lemma CardinalSmall(n: nat)
    requires 0 < n < 1000
    ensures Cardinal(n) == NameOf(n, false)
  {
    NatToStringShort(n);
    CardinalSpoken(n);
    SpokenOne(n, false);
    NameTrimmed(n, false);
  }
}

=== FILE: groups.dfy ===
/**
 Naming one group of at most three digits (`convert_lt100`,
 `convert_lt1000`, index.js:290-317) and cutting a digit string into
 fixed-width groups from the right (`split_rl`, index.js:319-329).
 */
module Groups {
  import opened Text
  import opened Digits
  import opened Lexicon

  /** The concatenation of a sequence of strings, left to right. */
  function Concat(xs: seq<string>): string
  {
    if xs == [] then [] else Concat(xs[..|xs| - 1]) + xs[|xs| - 1]
  }

  lemma MulSucc(a: nat, b: nat, n: nat)
    requires b == a + 1
    ensures b * n == a * n + n
  {
  }

  lemma ConcatSnoc(xs: seq<string>, x: string)
    ensures Concat(xs + [x]) == Concat(xs) + x
  {
    assert (xs + [x])[..|xs|] == xs;
  }

  /** `split_rl(s, n)`: cuts `s` into pieces of `n` characters working from
      the right, so that only the leftmost piece can be shorter. The empty
      string has no pieces, and there are ceil(|s| / n) of them. */
  function SplitRl(s: string, n: nat): (r: seq<string>)
    requires n > 0
    ensures Concat(r) == s
    ensures r == [] <==> s == []
    ensures forall i :: 0 < i < |r| ==> |r[i]| == n
    ensures |r| > 0 ==> 1 <= |r[0]| <= n
    decreases |s|
  {
    if s == [] then []
    else
      var cut := if |s| >= n then |s| - n else 0;
      var front := SplitRl(s[..cut], n);
      var r := front + [s[cut..]];
      ConcatSnoc(front, s[cut..]);
      assert s[..cut] + s[cut..] == s;
      assert cut == 0 ==> front == [];
      r
  }

  /** The groups of a digit string are digit strings. */
  lemma {:induction false} SplitRlDigits(s: string, n: nat)
    requires n > 0 && IsDigits(s)
    ensures forall i :: 0 <= i < |SplitRl(s, n)| ==> IsDigits(SplitRl(s, n)[i])
    decreases |s|
  {
    if |s| > n {
      SplitRlLast(s, n);
      SplitRlDigits(s[..|s| - n], n);
    } else if s != [] {
      SplitRlShort(s, n);
    }
  }

  /** There are ceil(|s| / n) groups: all but the first are full. */
  lemma {:induction false} SplitRlCount(s: string, n: nat)
    requires n > 0 && s != []
    ensures (|SplitRl(s, n)| - 1) * n < |s| <= |SplitRl(s, n)| * n
    decreases |s|
  {
    var r := SplitRl(s, n);
    if |s| <= n {
      SplitRlShort(s, n);
    } else {
      var front := s[..|s| - n];
      SplitRlLast(s, n);
      SplitRlCount(front, n);
      var c := |SplitRl(front, n)|;
      assert |r| == c + 1;
      MulSucc(c, |r|, n);
      MulSucc(c - 1, c, n);
    }
  }

  /** Peeling the rightmost group: the groups of `s` are the groups of all
      but its last `n` characters, followed by those characters. */
  lemma SplitRlLast(s: string, n: nat)
    requires n > 0 && |s| > n
    ensures SplitRl(s, n) == SplitRl(s[..|s| - n], n) + [s[|s| - n..]]
  {
  }

  /** A string of at most `n` characters is a single group. */
  lemma SplitRlShort(s: string, n: nat)
    requires n > 0 && 0 < |s| <= n
    ensures SplitRl(s, n) == [s]
  {
    assert s[..0] == [];
  }

  /** The number of 3-digit groups is the length divided by three,
      rounded up. */
  lemma {:induction false} GroupCount(s: string)
    ensures |SplitRl(s, 3)| == (|s| + 2) / 3
  {
    if s != [] {
      SplitRlCount(s, 3);
    }
  }

  /** How English names a number below one thousand, stated on the number
      itself: nothing for zero, a single word below twenty, a tens word
      joined by a hyphen to a non-zero unit, and "<digit> Hundred"
      followed, when the rest is not zero, by a space (or " and ") and
      the name of the rest. */
  function NameOf(v: nat, useAnd: bool): string
    requires v < 1000
  {
    if v == 0 then []
    else if v < 20 then LT20[v]
    else if v < 100 then
      if v % 10 == 0 then TENS[v / 10] else TENS[v / 10] + "-" + LT20[v % 10]
    else
      LT20[v / 100] + " Hundred"
      + (if v % 100 == 0 then [] else (if useAnd then " and " else " ") + NameOf(v % 100, useAnd))
  }

  /** A non-empty group name is a phrase: it starts with a capital letter
      and ends on a letter. */
  predicate Phrase(s: string) {
    |s| > 0 && IsUpper(s[0]) && !IsSpace(s[|s| - 1])
  }

  /** A group name is empty exactly for zero, and otherwise a phrase. */
  lemma {:induction false} NameOfShape(v: nat, useAnd: bool)
    requires v < 1000
    ensures NameOf(v, useAnd) == [] <==> v == 0
    ensures v > 0 ==> Phrase(NameOf(v, useAnd))
    decreases v
  {
    Lt20Words();
    TensWords();
    var r := NameOf(v, useAnd);
    if v >= 100 {
      var w := LT20[v / 100];
      assert IsWord(w);
      if v % 100 != 0 {
        NameOfShape(v % 100, useAnd);
      }
      assert r[0] == w[0];
    } else if 20 <= v {
      var w := TENS[v / 10];
      assert IsWord(w);
      assert r[0] == w[0];
      if v % 10 != 0 {
        assert IsWord(LT20[v % 10]);
      }
    }
  }

  /** The name of a two-digit value from twenty up, read off its digits:
      the tens word, hyphenated to the unit word unless the unit is zero. */
  lemma NameOfTens(val: string, useAnd: bool)
    requires IsDigits(val) && |val| == 2 && Value(val) >= 20
    ensures Value(val) < 100
    ensures NameOf(Value(val), useAnd)
         == if val[1] == '0' then TENS[DigitOf(val[0])]
            else TENS[DigitOf(val[0])] + "-" + LT20[DigitOf(val[1])]
  {
    SmallValue(val);
    var v := Value(val);
    assert v / 10 == DigitOf(val[0]) && v % 10 == DigitOf(val[1]);
  }

  /** The name of a three-digit value with a non-zero hundreds digit,
      read off its digits: the hundreds word, then the name of the last
      two digits unless they are both zero. */
  lemma {:induction false} NameOfHundreds(t: string, useAnd: bool)
    requires IsDigits(t) && |t| == 3 && t[0] != '0'
    ensures Value(t) < 1000 && Value(t[1..]) < 100
    ensures NameOf(Value(t), useAnd)
         == LT20[DigitOf(t[0])] + " Hundred"
            + (if AllZeros(t[1..]) then [] else (if useAnd then " and " else " ") + NameOf(Value(t[1..]), useAnd))
  {
    SmallValue(t);
    SmallValue(t[1..]);
    ValueZeroIffAllZeros(t[1..]);
    var v := Value(t);
    assert v == DigitOf(t[0]) * 100 + Value(t[1..]);
    assert v / 100 == DigitOf(t[0]) && v % 100 == Value(t[1..]);
  }

  /** `convert_lt100`: names a one- or two-digit string; below twenty by the
      table, otherwise by tens word and hyphenated unit. */
  function ConvertLt100(val: string): string
    requires IsDigits(val) && 1 <= |val| <= 2
  {
    SmallValue(val);
    var v := Value(val);
    if v < 20 then LT20[v]
    else if val[1] == '0' then TENS[DigitOf(val[0])]
    else TENS[DigitOf(val[0])] + "-" + LT20[DigitOf(val[1])]
  }

  /** `convert_lt1000`: names a group of at most three digits after
      stripping its leading zeros; an all-zero group is the empty string. */
  function ConvertLt1000(val: string, useAnd: bool): string
    requires IsDigits(val) && |val| <= 3
    decreases |val|, 1
  {
    var t := TrimZeros(val);
    if |t| == 0 then []
    else if |t| < 3 then ConvertLt100(t)
    else ConvertHundreds(t, useAnd)
  }

  /** The three-digit branch of `convert_lt1000`: the hundreds word, then,
      unless the last two digits are zero, a connector (" and " when asked
      for and the rest is not "00") and the name of the last two digits. */
  function ConvertHundreds(t: string, useAnd: bool): string
    requires IsDigits(t) && |t| == 3 && t[0] != '0'
    decreases |t|, 0
  {
    var rem := t[1..];
    var connector := if useAnd && rem != "00" then " and " else " ";
    if rem != [] && TrimZeros(rem) != [] then
      LT20[DigitOf(t[0])] + " Hundred" + connector + ConvertLt1000(rem, useAnd)
    else
      LT20[DigitOf(t[0])] + " Hundred"
  }

  /** Below one hundred the connector choice plays no part. */
  lemma NameOfBelowHundred(v: nat, useAnd: bool)
    requires v < 100
    ensures NameOf(v, useAnd) == NameOf(v, false)
  {
  }

  /** `convert_lt100` names the value its digits spell. */
  lemma ConvertLt100Name(val: string)
    requires IsDigits(val) && 1 <= |val| <= 2
    ensures Value(val) < 100 && ConvertLt100(val) == NameOf(Value(val), false)
  {
    SmallValue(val);
    if Value(val) >= 20 {
      NameOfTens(val, false);
    }
  }

  /** `convert_lt1000` names the value its digits spell, leading zeros and
      all: its result is the reference name of the group's value. */
  lemma {:induction false} ConvertLt1000Name(val: string, useAnd: bool)
    requires IsDigits(val) && |val| <= 3
    ensures Value(val) < 1000 && ConvertLt1000(val, useAnd) == NameOf(Value(val), useAnd)
    decreases |val|, 1
  {
    var t := TrimZeros(val);
    ValueTrimZeros(val);
    SmallValue(val);
    var v := Value(val);
    var r := ConvertLt1000(val, useAnd);
    if |t| == 0 {
      ValueZeroIffAllZeros(val);
      assert r == [];
    } else if |t| < 3 {
      assert r == ConvertLt100(t);
      ConvertLt100Name(t);
      NameOfBelowHundred(v, useAnd);
    } else {
      assert r == ConvertHundreds(t, useAnd);
      ConvertHundredsName(t, useAnd);
    }
  }

  /** The three-digit branch names the value of its digits. */
  lemma {:induction false} ConvertHundredsName(t: string, useAnd: bool)
    requires IsDigits(t) && |t| == 3 && t[0] != '0'
    ensures Value(t) < 1000 && ConvertHundreds(t, useAnd) == NameOf(Value(t), useAnd)
    decreases |t|, 0
  {
    var rem := t[1..];
    var head := LT20[DigitOf(t[0])] + " Hundred";
    NameOfHundreds(t, useAnd);
    if rem != [] && TrimZeros(rem) != [] {
      assert !AllZeros(rem) && rem != "00";
      var sep := if useAnd then " and " else " ";
      var tail := ConvertLt1000(rem, useAnd);
      assert ConvertHundreds(t, useAnd) == head + sep + tail;
      ConvertLt1000Name(rem, useAnd);
      assert NameOf(Value(t), useAnd) == head + (sep + tail);
      AppendAssoc(head, sep, tail);
    } else {
      assert ConvertHundreds(t, useAnd) == head;
      assert AllZeros(rem);
      assert NameOf(Value(t), useAnd) == head + [];
    }
  }

  /** An all-zero group names nothing, and any other group names a
      phrase. */
  lemma GroupSilentIffZero(val: string, useAnd: bool)
    requires IsDigits(val) && |val| <= 3
    ensures ConvertLt1000(val, useAnd) == [] <==> AllZeros(val)
    ensures !AllZeros(val) ==> Phrase(ConvertLt1000(val, useAnd))
  {
    ConvertLt1000Name(val, useAnd);
    ValueZeroIffAllZeros(val);
    NameOfShape(Value(val), useAnd);
  }

  /** Below twenty the name is the table word alone, with no surrounding
      space. */
  lemma NameOfSmall(v: nat, useAnd: bool)
    requires 0 < v < 20
    ensures NameOf(v, useAnd) == LT20[v] && Trim(LT20[v]) == LT20[v]
  {
    Lt20Words();
    assert IsWord(LT20[v]);
  }

  /** A group name has no surrounding space. */
  lemma NameTrimmed(v: nat, useAnd: bool)
    requires v < 1000
    ensures Trim(NameOf(v, useAnd)) == NameOf(v, useAnd)
  {
    NameOfShape(v, useAnd);
  }

  /** Group names from the library's own expectations. */
  lemma NameExamples()
    ensures NameOf(1, false) == "One" && NameOf(13, false) == "Thirteen"
    ensures NameOf(50, false) == "Fifty" && NameOf(25, false) == "Twenty-Five"
    ensures NameOf(42, false) == "Forty-Two" && NameOf(99, false) == "Ninety-Nine"
    ensures NameOf(21, false) == "Twenty-One" && NameOf(5, false) == "Five"
  {
  }

  /** Hundreds, with and without the " and " connector. */
  lemma HundredsExamples()
    ensures NameOf(123, false) == "One Hundred Twenty-Three"
    ensures NameOf(101, true) == "One Hundred and One"
    ensures NameOf(100, true) == "One Hundred"
  {
    OneHundredTwentyThree();
    OneHundredAndOne();
    assert LT20[1] == "One";
    assert "One" + " Hundred" == "One Hundred";
  }

  lemma OneHundredTwentyThree()
    ensures NameOf(123, false) == "One Hundred Twenty-Three"
  {
    assert LT20[1] == "One" && LT20[3] == "Three" && TENS[2] == "Twenty";
    assert "Twenty" + "-" + "Three" == "Twenty-Three";
    OneHundredTwentyThreeText();
  }

  lemma OneHundredTwentyThreeText()
    ensures "One" + " Hundred" + " " + "Twenty-Three" == "One Hundred Twenty-Three"
  {
  }

  lemma OneHundredAndOne()
    ensures NameOf(101, true) == "One Hundred and One"
  {
    assert LT20[1] == "One";
    assert "One" + " Hundred" + " and " + "One" == "One Hundred and One";
  }
}

=== FILE: lexicon.dfy ===
/**
 The three word tables every spelled number is built from (index.js:6-21):
 the names below twenty, the tens, and the scale words for successive
 powers of one thousand.
 */
module Lexicon {
  import opened Text

  /** Names of 0..19; the name of 0 is empty, so a zero digit says nothing. */
  const LT20: seq<string> := [
    "", "One", "Two", "Three", "Four", "Five", "Six", "Seven", "Eight", "Nine", "Ten",
    "Eleven", "Twelve", "Thirteen", "Fourteen", "Fifteen", "Sixteen", "Seventeen",
    "Eighteen", "Nineteen"
  ]

  /** Names of 0, 10, 20, ..., 90, indexed by the tens digit. */
  const TENS: seq<string> := [
    "", "Ten", "Twenty", "Thirty", "Forty", "Fifty", "Sixty", "Seventy", "Eighty", "Ninety"
  ]

  /** Scale words for 1000^0 .. 1000^11; the units group has none. */
  const SCALES: seq<string> := [
    "", "Thousand", "Million", "Billion", "Trillion", "Quadrillion", "Quintillion",
    "Sextillion", "Septillion", "Octillion", "Nonillion", "Decillion"
  ]

  /** The number of scale words, one per group of three digits. */
  const GROUPS: nat := 12

  /** The number of digits the scale table can name: 12 groups of 3. */
  const MAX: nat := 36

  /** The largest scale word, used to chain numbers longer than MAX digits. */
  const TOP_SCALE: string := "Decillion"

  /** A capitalised word with no whitespace in it. */
  predicate IsWord(w: string) {
    |w| > 0 && IsUpper(w[0]) && NoSpace(w)
  }

  /** The table sizes, and the two constants derived from the scale
      table: MAX is three digits per scale word, and TOP_SCALE is its last
      entry. */
  lemma TableSizes()
    ensures |LT20| == 20 && |TENS| == 10 && |SCALES| == GROUPS
    ensures MAX == |SCALES| * 3
    ensures TOP_SCALE == SCALES[|SCALES| - 1]
  {
  }

  /** Every entry but the one for zero is a capitalised word. */
  lemma Lt20Words()
    ensures forall i :: 1 <= i < |LT20| ==> IsWord(LT20[i])
    ensures LT20[0] == ""
  {
    forall i | 1 <= i < |LT20|
      ensures IsWord(LT20[i])
    {
      var w := LT20[i];
      assert |w| > 0 && IsUpper(w[0]);
    }
  }

  lemma TensWords()
    ensures forall i :: 1 <= i < |TENS| ==> IsWord(TENS[i])
    ensures TENS[0] == ""
  {
  }

  lemma ScaleWords()
    ensures forall i :: 1 <= i < |SCALES| ==> IsWord(SCALES[i])
    ensures SCALES[0] == ""
  {
  }

  /** The entries the decimal example "10,58" reads. */
  lemma DecimalExampleWords()
    ensures LT20[5] == "Five" && LT20[8] == "Eight" && LT20[10] == "Ten"
  {
  }
}

=== FILE: ordinal.dfy ===
/**
 `toOrdinal` (index.js:215-262): the cardinal words of the magnitude
 with their last word turned into its ordinal form.
 */
module Ordinal {
  import opened Text
  import opened Outcomes
  import opened Digits
  import opened Lexicon
  import opened Groups
  import opened Engine
  import opened OrdinalTable

  /** The ordinal of the segment after the last hyphen: the table form,
      else "th" appended (the "y" rule does not apply here). */
  function SegmentOrdinal(seg: string): string {
    if seg in ORDINALS then ORDINALS[seg] else seg + "th"
  }

  /** The ordinal of a whole last word: the table form, else a final "y"
      becomes "ieth", else "th" is appended. */
  function WordOrdinal(w: string): string {
    if w in ORDINALS then ORDINALS[w]
    else if |w| > 0 && w[|w| - 1] == 'y' then w[..|w| - 1] + "ieth"
    else w + "th"
  }

  /** A hyphenated last word: split at the hyphens, rewrite the last
      segment, join again. */
  function HyphenOrdinal(last: string): string {
    var hs := Split(last, '-');
    Join(hs[..|hs| - 1] + [SegmentOrdinal(hs[|hs| - 1])], "-")
  }

  /** The rewrite of the last word, by whether it holds a hyphen. */
  function LastOrdinal(last: string): (r: string)
    ensures '-' !in last ==> r == WordOrdinal(last)
  {
    if '-' in last then HyphenOrdinal(last) else WordOrdinal(last)
  }

  /** The words split at whitespace runs, the last one rewritten, and all
      joined again with single spaces. */
  function Rewrite(words: string): string {
    var parts := SplitWs(words);
    Join(parts[..|parts| - 1] + [LastOrdinal(parts[|parts| - 1])], " ")
  }

  /** The ordinal of a parsed integer: "Zeroth" for zero, else the
      rewritten cardinal of its magnitude, after "Negative " when it is
      below zero. */
  function OrdinalOf(n: int): string
  {
    if n == 0 then "Zeroth"
    else if n < 0 then "Negative " + Rewrite(Cardinal(-n))
    else Rewrite(Cardinal(n))
  }

  /** The ordinal of a negative number is "Negative " and the ordinal of
      its magnitude. */
  lemma OrdinalOfNegative(n: nat)
    requires n > 0
    ensures OrdinalOf(-(n as int)) == "Negative " + OrdinalOf(n)
  {
    var m := -(n as int);
    assert -m == n;
  }

  /** `toOrdinal`: the input is read like `parseInt`; no digits at all is
      an error carrying the input. */
  function ToOrdinal(val: string): (r: Result<string>)
    ensures r.Failure? <==> ParseInt(val).None?
    ensures r.Failure? ==> r.error == InvalidNumber(val)
    ensures ParseInt(val) == Some(0) ==> r == Success("Zeroth")
  {
    match ParseInt(val)
    case None => Failure(InvalidNumber(val))
    case Some(n) => Success(OrdinalOf(n))
  }

  /** Only the last word changes: the ordinal and the cardinal with its
      whitespace runs closed up to single spaces share everything before
      the last word, which is replaced by its ordinal form. */
  lemma OnlyLastWordChanges(words: string, ps: seq<string>)
    requires ps == SplitWs(words)
    ensures ps != []
    ensures Join(ps, " ") == Front(ps, " ") + ps[|ps| - 1]
    ensures Rewrite(words) == Front(ps, " ") + LastOrdinal(ps[|ps| - 1])
  {
    var x := LastOrdinal(ps[|ps| - 1]);
    RewriteJoin(words, ps);
    ReplaceLast(ps, x, " ");
  }

  lemma RewriteJoin(words: string, ps: seq<string>)
    requires ps == SplitWs(words)
    ensures ps != []
    ensures Rewrite(words) == Join(ps[..|ps| - 1] + [LastOrdinal(ps[|ps| - 1])], " ")
  {
  }

  /** The ordinal of a positive number keeps every word of its cardinal
      but the last, which takes its ordinal form. */
  lemma OrdinalLastWord(n: nat, ps: seq<string>)
    requires n > 0 && ps == SplitWs(Cardinal(n))
    ensures ps != []
    ensures Join(ps, " ") == Front(ps, " ") + ps[|ps| - 1]
    ensures OrdinalOf(n) == Front(ps, " ") + LastOrdinal(ps[|ps| - 1])
  {
    OnlyLastWordChanges(Cardinal(n), ps);
    PositiveOrdinal(n);
  }

  /** A digit string is read as its value. */
  lemma DigitsOrdinal(d: string)
    requires IsDigits(d) && d != []
    ensures ToOrdinal(d) == Success(OrdinalOf(Value(d)))
  {
    ParseIntDigits(d);
    ParsedOrdinal(d, Value(d));
  }

  /** A positive number's ordinal is the rewritten cardinal, unprefixed. */
  lemma PositiveOrdinal(n: nat)
    requires n > 0
    ensures OrdinalOf(n) == Rewrite(Cardinal(n))
  {
  }

  /** In a hyphenated last word only the segment after the last hyphen
      changes. */
  lemma HyphenLast(front: string, seg: string)
    requires '-' !in seg
    ensures LastOrdinal(front + "-" + seg) == front + "-" + SegmentOrdinal(seg)
  {
    var w := front + "-" + seg;
    assert w[|front|] == '-';
    JoinSplitLast(front, '-', seg, SegmentOrdinal(seg));
    var hs := Split(w, '-');
    assert hs[|hs| - 1] == seg by {
      JoinSplitLastPiece(front, '-', seg);
    }
  }

  /** Every word holding a hyphen is cut at its last hyphen. */
  lemma LastHyphen(w: string) returns (front: string, seg: string)
    requires '-' in w
    ensures w == front + "-" + seg && '-' !in seg
  {
    var i := |w| - 1;
    while w[i] != '-'
      invariant 0 <= i < |w|
      invariant '-' !in w[i + 1..]
      invariant '-' in w[..i + 1]
      decreases i
    {
      assert w[..i + 1] == w[..i] + [w[i]];
      i := i - 1;
    }
    front, seg := w[..i], w[i + 1..];
    assert w == w[..i] + [w[i]] + w[i + 1..];
  }

  /** A negative number is "Negative " and the ordinal of its magnitude. */
  lemma OrdinalNegative(d: string)
    requires IsDigits(d) && !AllZeros(d)
    ensures ToOrdinal(d) == Success(OrdinalOf(Value(d)))
    ensures ToOrdinal("-" + d) == Success("Negative " + OrdinalOf(Value(d)))
  {
    ValueZeroIffAllZeros(d);
    DigitsOrdinal(d);
    ParseIntDigits(d);
    ParsedNegative("-" + d, Value(d));
  }

  /** An input `parseInt` reads as a negative number has "Negative " and
      the ordinal of its magnitude. */
  lemma ParsedNegative(val: string, n: nat)
    requires n > 0 && ParseInt(val) == Some(-(n as int))
    ensures ToOrdinal(val) == Success("Negative " + OrdinalOf(n))
  {
    OrdinalOfNegative(n);
  }

  /** An input `parseInt` reads as `n` has the ordinal of `n`. */
  lemma ParsedOrdinal(val: string, n: int)
    requires ParseInt(val) == Some(n)
    ensures ToOrdinal(val) == Success(OrdinalOf(n))
  {
  }

  /** Zero, with or without a sign and with any number of zeros, is
      "Zeroth". */
  lemma Zeroth(d: string)
    requires IsDigits(d) && d != [] && AllZeros(d)
    ensures ToOrdinal(d) == Success("Zeroth")
    ensures ToOrdinal("-" + d) == Success("Zeroth")
  {
    ParseIntZeros(d);
  }

  /** Like `parseInt`, only the leading digits count: "12.7", "12abc" and
      "12x" are all read as twelve. */
  lemma LeadingDigits(d: string, rest: string)
    requires IsDigits(d) && d != []
    requires RunEnds(d, rest)
    ensures ToOrdinal(d + rest) == ToOrdinal(d)
  {
    ParseIntDecimal(d, rest);
    ParseIntDigits(d);
    ParsedOrdinal(d + rest, Value(d));
    ParsedOrdinal(d, Value(d));
  }

  /** Input without digits after the optional sign is rejected. */
  lemma NoDigitsRejected(val: string)
    requires val == [] || (!IsSpace(val[0]) && !IsDigit(val[0]) && val[0] != '-' && val[0] != '+')
    ensures ToOrdinal(val) == Failure(InvalidNumber(val))
  {
    NoDigitsNaN(val);
  }

  /** A number below one thousand takes the ordinal of its group name. */
  lemma OrdinalSmall(n: nat)
    requires 0 < n < 1000
    ensures OrdinalOf(n) == Rewrite(NameOf(n, false))
  {
    CardinalSmall(n);
  }

  /** A single word is replaced by its ordinal form. */
  lemma RewriteWord(w: string)
    requires NoSpace(w)
    ensures Rewrite(w) == LastOrdinal(w)
  {
    SplitWsWord(w);
  }

  /** A word in front of a whitespace run passes through unchanged and the
      run closes up to one space; the rewrite continues on the rest. */
  lemma RewriteAfterWord(w: string, pad: string, rest: string)
    requires NoSpace(w)
    requires pad != [] && forall i :: 0 <= i < |pad| ==> IsSpace(pad[i])
    requires rest == [] || !IsSpace(rest[0])
    ensures Rewrite(w + pad + rest) == w + " " + Rewrite(rest)
  {
    SplitWsPad(w, pad, rest);
    var ps := SplitWs(rest);
    RewriteJoin(rest, ps);
    RewriteCons(w + pad + rest, w, ps);
  }

  /** The rewrite of words whose split starts with `w`. */
  lemma RewriteCons(words: string, w: string, ps: seq<string>)
    requires ps != [] && SplitWs(words) == [w] + ps
    ensures Rewrite(words) == w + " " + Join(ps[..|ps| - 1] + [LastOrdinal(ps[|ps| - 1])], " ")
  {
    RewriteJoin(words, [w] + ps);
    ReplaceLastCons(w, ps, LastOrdinal(ps[|ps| - 1]), " ");
  }

  /** A cardinal ending in whitespace ends in an empty word, which takes
      "th" on its own. */
  lemma RewriteTrailingSpace(w: string)
    requires NoSpace(w)
    ensures Rewrite(w + " ") == w + " th"
  {
    assert w + " " == w + " " + "";
    EmptyWordOrdinal();
    SplitWsPad(w, " ", "");
    SplitWsWord("");
    ReplaceLastCons(w, [""], "th", " ");
    assert Join([""][..0] + ["th"], " ") == "th";
  }

  /** The empty word is not in the table and does not end in "y". */
  lemma EmptyWordOrdinal()
    ensures LastOrdinal("") == "th"
  {
    assert "" !in ORDINALS;
  }

  /** A table word is replaced by its table form. */
  lemma RewriteTableWord(w: string)
    requires NoSpace(w) && '-' !in w && w in ORDINALS
    ensures Rewrite(w) == ORDINALS[w]
  {
    RewriteWord(w);
  }

  /** A hyphenated single word whose last segment is a table word:
      that segment takes its table form. */
  lemma RewriteHyphenTable(a: string, b: string)
    requires NoSpace(a + "-" + b) && '-' !in b && b in ORDINALS
    ensures Rewrite(a + "-" + b) == a + "-" + ORDINALS[b]
  {
    RewriteWord(a + "-" + b);
    HyphenLast(a, b);
  }

  lemma TwentyFirstText()
    ensures "Twenty" + "-" + "One" == "Twenty-One"
    ensures "Twenty" + "-" + "First" == "Twenty-First"
    ensures NoSpace("Twenty-One")
  {
  }

  /** "Twenty-One" becomes "Twenty-First": only the segment after the
      hyphen is rewritten. */
  lemma TwentyFirst()
    ensures Rewrite("Twenty-One") == "Twenty-First"
  {
    TwentyFirstText();
    TableExamples();
    RewriteHyphenTable("Twenty", "One");
  }

  lemma TwoWordsText()
    ensures "One" + " " + "Hundred" == "One Hundred"
    ensures "One" + " " + ("Million" + "  " + "One") == "One Million  One"
    ensures "One" + " " + ("Million" + " " + "First") == "One Million First"
    ensures "One" + " " + "Hundredth" == "One Hundredth"
    ensures NoSpace("One") && NoSpace("Million") && NoSpace("Hundred")
    ensures '-' !in "Hundred"
  {
  }

  /** "One Hundred" becomes "One Hundredth". */
  lemma OneHundredth()
    ensures Rewrite("One Hundred") == "One Hundredth"
  {
    TwoWordsText();
    RewriteAfterWord("One", " ", "Hundred");
    TableExamples();
    RewriteTableWord("Hundred");
  }

  /** The double space of "One Million  One" closes up to one space. */
  lemma MillionFirst()
    ensures Rewrite("One Million  One") == "One Million First"
  {
    TwoWordsText();
    TableExamples();
    RewriteAfterWord("One", " ", "Million" + "  " + "One");
    RewriteAfterWord("Million", "  ", "One");
    RewriteTableWord("One");
  }

  /** A digit string naming 1 to 999 reads as the rewrite of its group
      name. */
  lemma SmallOrdinal(d: string, w: string)
    requires IsDigits(d) && d != [] && 0 < Value(d) < 1000
    requires Rewrite(NameOf(Value(d), false)) == w
    ensures ToOrdinal(d) == Success(w)
  {
    DigitsOrdinal(d);
    OrdinalSmall(Value(d));
  }

  lemma ExampleValues()
    ensures IsDigits("21") && Value("21") == 21
    ensures IsDigits("5") && Value("5") == 5 && !AllZeros("5")
  {
    assert "21"[..1] == "2";
    assert "5"[0] != '0';
  }

  /** "21" is "Twenty-First". */
  lemma TwentyFirstOrdinal()
    ensures ToOrdinal("21") == Success("Twenty-First")
  {
    ExampleValues();
    NameExamples();
    TwentyFirst();
    SmallOrdinal("21", "Twenty-First");
  }

  /** "Five" becomes "Fifth". */
  lemma Fifth()
    ensures Rewrite("Five") == "Fifth"
  {
    assert NoSpace("Five") && '-' !in "Five";
    TableExamples();
    RewriteTableWord("Five");
  }

  /** "5" is "Fifth". */
  lemma FifthOrdinal()
    ensures ToOrdinal("5") == Success("Fifth")
  {
    ExampleValues();
    NameExamples();
    Fifth();
    SmallOrdinal("5", "Fifth");
  }

  /** "-5" is "Negative Fifth". */
  lemma NegativeFifth()
    ensures ToOrdinal("-5") == Success("Negative Fifth")
  {
    NegativeFifthText();
    ExampleValues();
    FifthOrdinal();
    OrdinalNegative("5");
  }

  lemma NegativeFifthText()
    ensures "-" + "5" == "-5" && "Negative " + "Fifth" == "Negative Fifth"
  {
  }
}

=== FILE: ordinal_table.dfy ===
/**
 The table of irregular and table-driven ordinal forms `toOrdinal` looks
 the last word up in (index.js:227-236).
 */
module OrdinalTable {

  /** The irregular and table-driven ordinal forms, by cardinal word. */
  const ORDINALS: map<string, string> := map[
    "One" := "First", "Two" := "Second", "Three" := "Third", "Four" := "Fourth",
    "Five" := "Fifth", "Six" := "Sixth", "Seven" := "Seventh", "Eight" := "Eighth",
    "Nine" := "Ninth", "Ten" := "Tenth", "Eleven" := "Eleventh", "Twelve" := "Twelfth",
    "Thirteen" := "Thirteenth", "Fourteen" := "Fourteenth", "Fifteen" := "Fifteenth",
    "Sixteen" := "Sixteenth", "Seventeen" := "Seventeenth", "Eighteen" := "Eighteenth",
    "Nineteen" := "Nineteenth", "Twenty" := "Twentieth", "Thirty" := "Thirtieth",
    "Forty" := "Fortieth", "Fifty" := "Fiftieth", "Sixty" := "Sixtieth",
    "Seventy" := "Seventieth", "Eighty" := "Eightieth", "Ninety" := "Ninetieth",
    "Hundred" := "Hundredth", "Thousand" := "Thousandth", "Million" := "Millionth",
    "Billion" := "Billionth", "Trillion" := "Trillionth"]

  /** The empty word is not in the table. */
  lemma EmptyNotInTable()
    ensures "" !in ORDINALS
  {
  }

  /** "One" becomes "First", "Hundred" becomes "Hundredth". */
  lemma TableExamples()
    ensures ORDINALS["One"] == "First" && ORDINALS["Five"] == "Fifth"
    ensures ORDINALS["Hundred"] == "Hundredth" && ORDINALS["Million"] == "Millionth"
    ensures "One" in ORDINALS && "Five" in ORDINALS && "Hundred" in ORDINALS
  {
  }
}

=== FILE: outcomes.dfy ===
/**
 The two ways a conversion can end. The library signals its one error by
 throwing `Error("Invalid number: <input>")`; here that is a `Failure`
 carrying the offending input.
 */
module Outcomes {

  datatype Option<T> = None | Some(value: T)

  /** The only error the library raises. */
  datatype Error = InvalidNumber(input: string)

  datatype Result<T> = Success(value: T) | Failure(error: Error)
}

=== FILE: text.dfy ===
/**
 String helpers that stand in for the JavaScript built-ins the library uses:
 `trim`, `toLowerCase`/`toUpperCase` (ASCII only), `replaceAll`,
 `Array.prototype.join`, `split` on one character and `split(/\s+/)`.
 */
module Text {

  /** Whitespace as `trim` and the regular expression class `\s` see it
      (tab, line feed, vertical tab, form feed, carriage return, the
      Unicode space separators, the byte-order mark and the two Unicode
      line terminators). */
  predicate IsSpace(c: char) {
    c == ' ' || c == '\t' || c == '\n' || c == '\r' || c == '\U{0B}' || c == '\U{0C}'
    || c == '\U{A0}' || c == '\U{1680}' || ('\U{2000}' <= c <= '\U{200A}') || c == '\U{202F}'
    || c == '\U{205F}' || c == '\U{3000}' || c == '\U{FEFF}' || c == '\U{2028}' || c == '\U{2029}'
  }

  /** No character of `w` is whitespace. */
  predicate NoSpace(w: string) {
    forall j :: 0 <= j < |w| ==> !IsSpace(w[j])
  }

  /** Neither end of `s` is whitespace (vacuously true of ""). */
  predicate Tidy(s: string) {
    s == [] || (!IsSpace(s[0]) && !IsSpace(s[|s| - 1]))
  }

  /** Leading whitespace removed. */
  function TrimStart(s: string): (r: string)
    ensures |r| <= |s| && r == s[|s| - |r|..]
    ensures forall i :: 0 <= i < |s| - |r| ==> IsSpace(s[i])
    ensures r == [] || !IsSpace(r[0])
    decreases |s|
  {
    if |s| > 0 && IsSpace(s[0]) then TrimStart(s[1..]) else s
  }

  /** Trailing whitespace removed. */
  function TrimEnd(s: string): (r: string)
    ensures |r| <= |s| && r == s[..|r|]
    ensures forall i :: |r| <= i < |s| ==> IsSpace(s[i])
    ensures r == [] || !IsSpace(r[|r| - 1])
    decreases |s|
  {
    if |s| > 0 && IsSpace(s[|s| - 1]) then TrimEnd(s[..|s| - 1]) else s
  }

  /** A non-empty sequence is its head in front of its tail. */
  lemma HeadTail<T>(xs: seq<T>)
    requires xs != []
    ensures xs == [xs[0]] + xs[1..]
  {
  }

  /** Concatenation regroups freely. */
  lemma AppendAssoc<T>(a: seq<T>, b: seq<T>, c: seq<T>)
    ensures a + b + c == a + (b + c)
  {
  }

  /** `String.prototype.trim`: the slice of `s` left once the whitespace
      at both ends is gone (`TrimSlice`). */
  function Trim(s: string): (r: string)
    ensures Tidy(r)
    ensures |r| <= |s|
    ensures Tidy(s) ==> r == s
  {
    var t := TrimStart(s);
    var r := TrimEnd(t);
    assert r == [] || r[0] == t[0];
    assert Tidy(s) ==> t == s && r == t by {
      if Tidy(s) && s != [] {
        assert !IsSpace(s[0]) && !IsSpace(t[|t| - 1]);
      }
    }
    r
  }

  /** What `trim` keeps is one slice of `s`, and everything before and
      after that slice is whitespace. */
  lemma TrimSlice(s: string)
    ensures |s| - |TrimStart(s)| + |Trim(s)| <= |s|
    ensures Trim(s) == s[|s| - |TrimStart(s)|..|s| - |TrimStart(s)| + |Trim(s)|]
    ensures forall i :: 0 <= i < |s| - |TrimStart(s)| ==> IsSpace(s[i])
    ensures forall i :: |s| - |TrimStart(s)| + |Trim(s)| <= i < |s| ==> IsSpace(s[i])
  {
    var t := TrimStart(s);
    var r := TrimEnd(t);
    assert Trim(s) == r;
    SliceOfSuffix(s, t, r);
  }

  /** Trimming adds no character. */
  lemma TrimKeepsOut(s: string, d: char)
    requires d !in s
    ensures d !in Trim(s)
  {
    TrimSlice(s);
    var k := |s| - |TrimStart(s)|;
    forall i | 0 <= i < |Trim(s)|
      ensures Trim(s)[i] != d
    {
      assert Trim(s)[i] == s[k + i];
    }
  }

  /** A prefix `r` of a suffix `t` of `s` is one slice of `s`; what `t`
      holds after `r` is what `s` holds after that slice. */
  lemma SliceOfSuffix(s: string, t: string, r: string)
    requires |t| <= |s| && t == s[|s| - |t|..]
    requires |r| <= |t| && r == t[..|r|]
    requires forall i :: |r| <= i < |t| ==> IsSpace(t[i])
    ensures r == s[|s| - |t|..|s| - |t| + |r|]
    ensures forall i :: |s| - |t| + |r| <= i < |s| ==> IsSpace(s[i])
  {
    var k := |s| - |t|;
    forall i | k + |r| <= i < |s|
      ensures IsSpace(s[i])
    {
      assert s[i] == t[i - k];
    }
  }

  /** Trimming a string whose first character is not whitespace keeps that
      character in front. */
  lemma TrimKeepsFirst(s: string)
    requires |s| > 0 && !IsSpace(s[0])
    ensures |Trim(s)| > 0 && Trim(s)[0] == s[0]
  {
    assert TrimStart(s) == s;
  }

  /** Trailing whitespace is invisible to `trim`. */
  lemma {:induction false} TrimDropsTrailing(s: string, pad: string)
    requires forall i :: 0 <= i < |pad| ==> IsSpace(pad[i])
    ensures Trim(s + pad) == Trim(s)
    decreases |s| + |pad|
  {
    if |s| > 0 && IsSpace(s[0]) {
      assert (s + pad)[1..] == s[1..] + pad;
      TrimDropsTrailing(s[1..], pad);
      assert TrimStart(s + pad) == TrimStart(s[1..] + pad);
    } else if |s| == 0 {
      assert s + pad == pad;
      TrimAllSpace(pad);
    } else {
      assert TrimStart(s + pad) == s + pad;
      TrimEndDropsTrailing(s, pad);
    }
  }

  lemma {:induction false} TrimAllSpace(pad: string)
    requires forall i :: 0 <= i < |pad| ==> IsSpace(pad[i])
    ensures Trim(pad) == []
  {
    var t := TrimStart(pad);
  }

  lemma {:induction false} TrimEndDropsTrailing(s: string, pad: string)
    requires forall i :: 0 <= i < |pad| ==> IsSpace(pad[i])
    ensures TrimEnd(s + pad) == TrimEnd(s)
    decreases |pad|
  {
    if |pad| > 0 {
      assert (s + pad)[..|s + pad| - 1] == s + pad[..|pad| - 1];
      TrimEndDropsTrailing(s, pad[..|pad| - 1]);
    } else {
      assert s + pad == s;
    }
  }

  /** ASCII `toLowerCase` of one character. */
  function LowerChar(c: char): char {
    if 'A' <= c <= 'Z' then (c as int + 32) as char else c
  }

  /** ASCII `toUpperCase` of one character. */
  function UpperChar(c: char): char {
    if 'a' <= c <= 'z' then (c as int - 32) as char else c
  }

  predicate IsUpper(c: char) {
    'A' <= c <= 'Z'
  }

  /** `toLowerCase` restricted to ASCII. */
  function Lower(s: string): (r: string)
    ensures |r| == |s|
    ensures forall i :: 0 <= i < |s| ==> r[i] == LowerChar(s[i])
  {
    seq(|s|, i requires 0 <= i < |s| => LowerChar(s[i]))
  }

  /** `toUpperCase` restricted to ASCII. */
  function Upper(s: string): (r: string)
    ensures |r| == |s|
    ensures forall i :: 0 <= i < |s| ==> r[i] == UpperChar(s[i])
  {
    seq(|s|, i requires 0 <= i < |s| => UpperChar(s[i]))
  }

  /** The library's `capitalizeFirstLetter`: upper-cases the first character
      and leaves the rest alone. */
  function CapitalizeFirstLetter(s: string): (r: string)
    ensures |r| == |s|
    ensures |s| > 0 ==> r[0] == UpperChar(s[0]) && r[1..] == s[1..]
  {
    if s == [] then s else [UpperChar(s[0])] + s[1..]
  }

  /** Upper-casing the first letter of a string that already starts with
      an upper-case letter changes nothing. */
  lemma CapitalizeCapitalized(s: string)
    requires |s| > 0 && IsUpper(s[0])
    ensures CapitalizeFirstLetter(s) == s
  {
    assert [s[0]] + s[1..] == s;
  }

  /** `s.replaceAll(c, "")`: every other character is kept, as often as
      it occurs; `DeleteAllAppend` adds that they keep their order. */
  function DeleteAll(s: string, c: char): (r: string)
    ensures c !in r
    ensures |r| <= |s|
    ensures c !in s ==> r == s
    ensures multiset(r) == multiset(s)[c := 0]
    ensures |r| == |s| - multiset(s)[c]
  {
    if s == [] then []
    else
      var rest := DeleteAll(s[1..], c);
      assert s == [s[0]] + s[1..];
      assert multiset(s) == multiset([s[0]]) + multiset(s[1..]);
      if s[0] == c then rest
      else
        assert multiset([s[0]] + rest) == multiset([s[0]]) + multiset(rest);
        [s[0]] + rest
  }

  /** Deleting from a concatenation deletes from each part, so the kept
      characters stay in their order. */
  lemma {:induction false} DeleteAllAppend(a: string, b: string, c: char)
    ensures DeleteAll(a + b, c) == DeleteAll(a, c) + DeleteAll(b, c)
    decreases |a|
  {
    if a == [] {
      assert a + b == b;
    } else {
      assert (a + b)[0] == a[0] && (a + b)[1..] == a[1..] + b;
      DeleteAllAppend(a[1..], b, c);
    }
  }

  /** Deleting a character twice is deleting it once. */
  lemma DeleteAllIdempotent(s: string, c: char)
    ensures DeleteAll(DeleteAll(s, c), c) == DeleteAll(s, c)
  {
  }

  /** `s.replace(/c/g, d)`. */
  function ReplaceAll(s: string, c: char, d: char): (r: string)
    ensures |r| == |s|
    ensures forall i :: 0 <= i < |s| ==> r[i] == (if s[i] == c then d else s[i])
  {
    seq(|s|, i requires 0 <= i < |s| => if s[i] == c then d else s[i])
  }

  /** `Array.prototype.join(sep)`. */
  function Join(xs: seq<string>, sep: string): string
    decreases |xs|
  {
    if |xs| == 0 then []
    else if |xs| == 1 then xs[0]
    else xs[0] + sep + Join(xs[1..], sep)
  }

  /** Joining one more element at the end appends it after a separator. */
  lemma {:induction false} JoinSnoc(xs: seq<string>, x: string, sep: string)
    requires |xs| > 0
    ensures Join(xs + [x], sep) == Join(xs, sep) + sep + x
    decreases |xs|
  {
    if |xs| == 1 {
      assert (xs + [x])[1..] == [x];
    } else {
      assert (xs + [x])[1..] == xs[1..] + [x];
      JoinSnoc(xs[1..], x, sep);
    }
  }

  /** A joined string starts with its first element. */
  lemma JoinStartsWithFirst(xs: seq<string>, sep: string)
    requires |xs| > 0
    ensures |Join(xs, sep)| >= |xs[0]| && Join(xs, sep)[..|xs[0]|] == xs[0]
  {
  }

  /** Index of the first whitespace character of `s`, or |s|. */
  function FirstSpace(s: string): (k: nat)
    ensures k <= |s|
    ensures forall i :: 0 <= i < k ==> !IsSpace(s[i])
    ensures k < |s| ==> IsSpace(s[k])
  {
    if s == [] || IsSpace(s[0]) then 0 else 1 + FirstSpace(s[1..])
  }

  /** The shape every result of `split(/\s+/)` has: at least one piece, no
      piece holds whitespace, and only the first and the last piece may be
      empty (when the string starts or ends with whitespace). */
  predicate WellSplit(ws: seq<string>) {
    && |ws| >= 1
    && (forall i :: 0 <= i < |ws| ==> NoSpace(ws[i]))
    && (forall i :: 0 < i < |ws| - 1 ==> ws[i] != [])
  }

  /** `s.split(/\s+/)`: the pieces between maximal whitespace runs. */
  function SplitWs(s: string): (r: seq<string>)
    ensures WellSplit(r)
    ensures s != [] && !IsSpace(s[0]) ==> r[0] != []
    decreases |s|
  {
    var k := FirstSpace(s);
    if k == |s| then [s]
    else
      var t := TrimStart(s[k..]);
      assert |t| < |s[k..]|;
      var rest := SplitWs(t);
      [s[..k]] + rest
  }

  /** Splitting "w t" where w holds no whitespace and t does not start
      with whitespace yields w followed by the pieces of t. */
  lemma SplitWsCons(w: string, tail: string)
    requires NoSpace(w)
    requires tail == [] || !IsSpace(tail[0])
    ensures SplitWs(w + " " + tail) == [w] + SplitWs(tail)
  {
    var j := w + " " + tail;
    var k := FirstSpace(j);
    assert j[|w|] == ' ';
    assert k == |w|;
    assert j[..k] == w;
    assert j[k..] == " " + tail;
    assert (" " + tail)[1..] == tail;
    assert TrimStart(j[k..]) == TrimStart(tail) == tail;
  }

  /** A word without whitespace is split into itself. */
  lemma SplitWsWord(w: string)
    requires NoSpace(w)
    ensures SplitWs(w) == [w]
  {
    assert FirstSpace(w) == |w|;
  }

  /** Any non-empty run of whitespace separates a word from the rest. */
  lemma {:induction false} SplitWsPad(w: string, pad: string, tail: string)
    requires NoSpace(w)
    requires pad != [] && forall i :: 0 <= i < |pad| ==> IsSpace(pad[i])
    requires tail == [] || !IsSpace(tail[0])
    ensures SplitWs(w + pad + tail) == [w] + SplitWs(tail)
  {
    var j := w + pad + tail;
    assert j[|w|] == pad[0];
    assert FirstSpace(j) == |w|;
    assert j[..|w|] == w;
    assert j[|w|..] == pad + tail;
    TrimStartPad(pad, tail);
  }

  /** Leading whitespace in front of a non-space is dropped by `TrimStart`. */
  lemma {:induction false} TrimStartPad(pad: string, tail: string)
    requires forall i :: 0 <= i < |pad| ==> IsSpace(pad[i])
    requires tail == [] || !IsSpace(tail[0])
    ensures TrimStart(pad + tail) == tail
    decreases |pad|
  {
    if pad != [] {
      assert (pad + tail)[1..] == pad[1..] + tail;
      TrimStartPad(pad[1..], tail);
    }
  }

  /** Splitting on whitespace undoes joining with single spaces, whenever
      the pieces have the shape `split` produces. */
  lemma {:induction false} SplitJoin(ws: seq<string>)
    requires WellSplit(ws)
    ensures SplitWs(Join(ws, " ")) == ws
    decreases |ws|
  {
    if |ws| == 1 {
      assert NoSpace(ws[0]);
      assert FirstSpace(ws[0]) == |ws[0]|;
    } else {
      var tail := Join(ws[1..], " ");
      if ws[1] == [] {
        assert tail == [];
      } else {
        JoinStartsWithFirst(ws[1..], " ");
        assert tail[0] == ws[1][0];
        assert NoSpace(ws[1]);
      }
      assert NoSpace(ws[0]);
      assert Join(ws, " ") == ws[0] + " " + tail;
      SplitWsCons(ws[0], tail);
      assert WellSplit(ws[1..]);
      SplitJoin(ws[1..]);
      HeadTail(ws);
    }
  }

  /** `s.split(c)` for a one-character separator: the pieces between the
      occurrences of `c`, left to right; there is always at least one. */
  function Split(s: string, c: char): (r: seq<string>)
    ensures |r| >= 1
    ensures |r| == 1 <==> c !in s
    ensures |r[0]| <= |s| && (c in s ==> |r[0]| < |s|)
    decreases |s|
  {
    if s == [] then [[]]
    else
      var r := Split(s[1..], c);
      if s[0] == c then [[]] + r else [[s[0]] + r[0]] + r[1..]
  }

  /** A string without the separator is a single piece. */
  lemma {:induction false} SplitNone(s: string, c: char)
    requires c !in s
    ensures Split(s, c) == [s]
    decreases |s|
  {
    if s != [] {
      SplitNone(s[1..], c);
      assert [s[0]] + s[1..] == s;
    }
  }

  /** The first piece is everything before the first separator, and the
      rest is the split of what follows it. */
  lemma {:induction false} SplitAt(a: string, c: char, rest: string)
    requires c !in a
    ensures Split(a + [c] + rest, c) == [a] + Split(rest, c)
    decreases |a|
  {
    var s := a + [c] + rest;
    if a == [] {
      assert s[1..] == rest;
    } else {
      assert s[1..] == a[1..] + [c] + rest;
      SplitAt(a[1..], c, rest);
      assert [a[0]] + a[1..] == a;
    }
  }

  /** The first piece adds no character. */
  lemma {:induction false} SplitFirstKeepsOut(s: string, c: char, d: char)
    requires d !in s
    ensures d !in Split(s, c)[0]
    decreases |s|
  {
    if s != [] {
      SplitFirstKeepsOut(s[1..], c, d);
    }
  }

  /** No piece contains the separator. */
  lemma {:induction false} SplitPiecesClean(s: string, c: char)
    ensures forall i :: 0 <= i < |Split(s, c)| ==> c !in Split(s, c)[i]
    decreases |s|
  {
    if s != [] {
      SplitPiecesClean(s[1..], c);
    }
  }

  /** Joining behind a first element adds that element and a separator. */
  lemma JoinCons(x: string, ys: seq<string>, sep: string)
    requires ys != []
    ensures Join([x] + ys, sep) == x + sep + Join(ys, sep)
  {
    assert ([x] + ys)[1..] == ys;
  }

  /** Putting characters in front of the first element puts them in front
      of the join. */
  lemma JoinPrefixHead(a: string, xs: seq<string>, sep: string)
    requires xs != []
    ensures Join([a + xs[0]] + xs[1..], sep) == a + Join(xs, sep)
  {
    var ys := [a + xs[0]] + xs[1..];
    if |xs| > 1 {
      assert ys[1..] == xs[1..];
    }
  }

  /** Joining the pieces with the separator gives back the string. */
  lemma {:induction false} JoinSplit(s: string, c: char)
    ensures Join(Split(s, c), [c]) == s
    decreases |s|
  {
    if s != [] {
      var r := Split(s[1..], c);
      JoinSplit(s[1..], c);
      if s[0] == c {
        JoinCons([], r, [c]);
      } else {
        JoinPrefixHead([s[0]], r, [c]);
      }
      assert [s[0]] + s[1..] == s;
    }
  }

  /** Splitting at a separator that has no separator after it, replacing the
      last piece and joining again keeps everything up to and including
      that separator. */
  lemma {:induction false} JoinSplitLast(front: string, c: char, last: string, x: string)
    requires c !in last
    ensures |Split(front + [c] + last, c)| >= 2
    ensures var ps := Split(front + [c] + last, c);
            Join(ps[..|ps| - 1] + [x], [c]) == front + [c] + x
    decreases |front|
  {
    var s := front + [c] + last;
    var ps := Split(s, c);
    if front == [] {
      SplitAt([], c, last);
      SplitNone(last, c);
      assert s == [] + [c] + last;
      assert ps[..|ps| - 1] + [x] == [[], x];
    } else {
      var r := Split(s[1..], c);
      assert s[1..] == front[1..] + [c] + last;
      JoinSplitLast(front[1..], c, last, x);
      var tail := r[..|r| - 1] + [x];
      if front[0] == c {
        assert ps[..|ps| - 1] + [x] == [[]] + tail;
        JoinCons([], tail, [c]);
      } else {
        assert ps[..|ps| - 1] + [x] == [[front[0]] + tail[0]] + tail[1..];
        JoinPrefixHead([front[0]], tail, [c]);
      }
      assert [front[0]] + (front[1..] + [c] + x) == front + [c] + x;
    }
  }

  /** The last piece is what follows the last separator. */
  lemma {:induction false} JoinSplitLastPiece(front: string, c: char, last: string)
    requires c !in last
    ensures var ps := Split(front + [c] + last, c);
            |ps| >= 2 && ps[|ps| - 1] == last
    decreases |front|
  {
    var s := front + [c] + last;
    if front == [] {
      assert s == [] + [c] + last;
      SplitAt([], c, last);
      SplitNone(last, c);
    } else {
      assert s[1..] == front[1..] + [c] + last;
      JoinSplitLastPiece(front[1..], c, last);
    }
  }

  /** Everything before the last of `ps`, joined with `sep` and followed
      by the `sep` that comes before the last element (nothing when there
      is only one element). */
  function Front(ps: seq<string>, sep: string): string
    requires ps != []
  {
    if |ps| == 1 then [] else Join(ps[..|ps| - 1], sep) + sep
  }

  /** A join is its front and its last element; replacing the last
      element keeps the front. */
  lemma ReplaceLast(ps: seq<string>, x: string, sep: string)
    requires ps != []
    ensures Join(ps, sep) == Front(ps, sep) + ps[|ps| - 1]
    ensures Join(ps[..|ps| - 1] + [x], sep) == Front(ps, sep) + x
  {
    var k := |ps|;
    if k > 1 {
      var init := ps[..k - 1];
      assert ps == init + [ps[k - 1]];
      JoinSnoc(init, ps[k - 1], sep);
      JoinSnoc(init, x, sep);
    }
  }

  /** Replacing the last element behind a new first element: the first
      element and a separator come in front of the rest's join. */
  lemma ReplaceLastCons(w: string, ps: seq<string>, x: string, sep: string)
    requires ps != []
    ensures var qs := [w] + ps;
            Join(qs[..|qs| - 1] + [x], sep) == w + sep + Join(ps[..|ps| - 1] + [x], sep)
  {
    var qs := [w] + ps;
    assert qs[..|qs| - 1] + [x] == [w] + (ps[..|ps| - 1] + [x]);
    JoinCons(w, ps[..|ps| - 1] + [x], sep);
  }

  /** Each string preceded by one space, concatenated: what a loop doing
      `result += " " + w` appends. */
  function Spaced(ws: seq<string>): (r: string)
    decreases |ws|
  {
    if ws == [] then [] else " " + ws[0] + Spaced(ws[1..])
  }

  /** Appending space-led words is joining them with spaces after one
      leading space. */
  lemma {:induction false} SpacedJoin(ws: seq<string>)
    requires ws != []
    ensures Spaced(ws) == " " + Join(ws, " ")
    decreases |ws|
  {
    if |ws| > 1 {
      SpacedJoin(ws[1..]);
    }
  }
}
